=== FILE: README.md ===
# TouhuRunner core in Dafny

A model of the game logic of TouhuRunner, a Unity endless runner. Two
pieces of tofu run down lanes, dodge walls and score by distance.

The centre of the model is the stage streamer (`StageManager`). It does
three things:

- It picks a stage variant by a cumulative-weight walk over a
  first-key-wins serialisable dictionary.
- It places stages one `zOffset` apart from `initOffset`.
- It keeps the live stages in a FIFO window. Each frame it spawns when
  the player nears the end of the newest stage, then evicts the oldest
  once the window outgrows `initStageCount`.

The smaller pieces of logic around it are also modelled:

- the player controller's lanes, staged speed-up, dodge bonus and wall hit;
- the game manager's state and accumulators;
- player-name cleaning;
- singleton registration;
- the wall's game-over latch;
- vector and transform helpers;
- audio-table lookup;
- the pause-aware coroutine loops.

Every operation is a pure function over immutable records:

- C# `null` is `Option`.
- `float` is `real`.
- A Unity layer mask is a `bv32`.
- The random draw, the player's position and the frame trace are
  parameters.
- The object pool is reduced to the log of `GetObj`/`ReturnObj` calls
  made on it.
- A coroutine is a step function applied once per frame it runs in.

One module per source file, plus `Nullable` (the `Option` type),
`Vector` (`Vector3`, `Quaternion` and distance) and `LayerMask`.

Three facts about the streamer's code shape the model:

- The draw is `Random.value * total` with `Random.value` in [0, 1]. Both
  ends are included, so a draw equal to the total is possible.
- The eviction check runs after every spawn attempt, including one that
  spawned nothing. Within the window a failed spawn does not grow the
  queue, so it never evicts.
- The window holds at most `initStageCount` stages, not always exactly
  that many. A failed pick during warm-up leaves the window short, and
  it then refills by at most one stage per frame.

An index exception thrown part-way through a player callback is kept
as a `threw` flag next to the state the callback had written so far;
the rest of that callback is skipped, as in the source. Lane indices
are C# `int`s, and the one-lane moves wrap at the ends of the int range
as unchecked C# arithmetic does. Where the
source's code is defective (see "## Findings"), the model carries both
the code as written and the corrected definition.

## Model

| member | source | states |
|---|---|---|
| StageManager.GetRandomStage | Assets/TechC/Scripts/MainScene/Stage/StageManager.cs:94-113 | A weight total of 0 or less gives null. Otherwise the pick is the value of the earliest entry whose running weight sum reaches `r * total`, and a non-null pick is always such an entry. |
| StageManager.WalkFrom | Assets/TechC/Scripts/MainScene/Stage/StageManager.cs:103-112 | The cumulative walk returns the first index whose running sum reaches the draw. It returns nothing only when no index reaches it. |
| StageManager.FirstReachingUnique | Assets/TechC/Scripts/MainScene/Stage/StageManager.cs:105-110 | At most one entry is the earliest to reach the draw, so ties go to the earlier entry. |
| StageManager.GetRandomStageNonNull | Assets/TechC/Scripts/MainScene/Stage/StageManager.cs:100-112 | With a positive total and a draw in [0, 1], the pick is never null. |
| StageManager.CumulativeMonotone | Assets/TechC/Scripts/MainScene/Stage/StageManager.cs:105-107 | With non-negative weights, the running sum never decreases along the walk. |
| StageManager.PickedIffInInterval | Assets/TechC/Scripts/MainScene/Stage/StageManager.cs:105-110 | With non-negative weights and a positive scaled draw, entry i is picked exactly when the draw lies in (sum before i, sum through i]. |
| StageManager.Init | Assets/TechC/Scripts/MainScene/Stage/StageManager.cs:28-33 | The queue starts empty, with nothing spawned, and the cursor starts at `initOffset`. |
| StageManager.SpawnNextStage | Assets/TechC/Scripts/MainScene/Stage/StageManager.cs:75-89 | A null pick or a pick without a prefab leaves the state alone and calls the pool not at all. Otherwise exactly one `GetObj` is made at the cursor, that stage is appended at the tail, and the cursor advances by exactly `zOffset`. |
| StageManager.Start | Assets/TechC/Scripts/MainScene/Stage/StageManager.cs:34-41 | Warm-up only takes from the pool: every live stage stays at the front, the queue grows by at most `initStageCount`, each pool call is a `GetObj` adding one stage, and the placement invariant is kept. |
| StageManager.Update | Assets/TechC/Scripts/MainScene/Stage/StageManager.cs:43-69 | There is no change without a player, with an empty queue, or when the player is not within `spawnThreshold` of the tail's end. At most one spawn and one eviction happen, and an eviction follows the spawn. A spawn happens exactly when the player is near and the pick is valid, and the frame's calls begin with exactly the spawn attempt's calls (prefab and position included). An eviction happens exactly when the player is near and the queue after the spawn attempt is longer than `initStageCount`; it returns the queue's head. Without an eviction the result is the spawn attempt's, and the cursor and id counter always are. A queue within `initStageCount` stays within it. |
| StageManager.FailedSpawnNeverEvicts | Assets/TechC/Scripts/MainScene/Stage/StageManager.cs:57-66 | Within the window, a frame whose pick yields no prefab changes nothing and calls the pool not at all. |
| StageManager.ShortWindowRefills | Assets/TechC/Scripts/MainScene/Stage/StageManager.cs:57-66 | A window short of `initStageCount` grows by exactly one stage on a successful spawn, keeping the live stages in front. |
| StageManager.InitSpaced | Assets/TechC/Scripts/MainScene/Stage/StageManager.cs:31-32 | The initial state satisfies the placement invariant: stage k at `initOffset + k * zOffset`, ids contiguous, and the cursor at the next slot. |
| StageManager.SpawnKeepsSpaced | Assets/TechC/Scripts/MainScene/Stage/StageManager.cs:84-88 | A spawn preserves the placement invariant, so the k-th successful spawn sits at `initOffset + k * zOffset`. |
| StageManager.SpawnEachKeepsSpaced | Assets/TechC/Scripts/MainScene/Stage/StageManager.cs:37-40 | Any run of spawns preserves the placement invariant. |
| StageManager.DropOldestKeepsSpaced | Assets/TechC/Scripts/MainScene/Stage/StageManager.cs:62-66 | Dequeuing the head preserves the placement invariant. |
| StageManager.UpdateKeepsSpaced | Assets/TechC/Scripts/MainScene/Stage/StageManager.cs:43-69 | Every frame's update preserves the placement invariant. |
| StageManager.UpdateEvictsOldest | Assets/TechC/Scripts/MainScene/Stage/StageManager.cs:62-66 | The stage handed to `ReturnObj` is the one with the smallest id alive, which is the oldest. |
| StageManager.UpdateKeepsFullWindow | Assets/TechC/Scripts/MainScene/Stage/StageManager.cs:57-66 | A window holding exactly `initStageCount` stages still holds exactly that many after the update. |
| StageManager.SpawnEachCount | Assets/TechC/Scripts/MainScene/Stage/StageManager.cs:37-40 | A run of n spawn attempts grows the queue by at most n, and by exactly n when every pick is valid. The old stages stay in front, and each pool call is a `GetObj` for one added stage. |
| StageManager.WarmUp | Assets/TechC/Scripts/MainScene/Stage/StageManager.cs:34-41 | Warm-up leaves at most `initStageCount` stages, and exactly that many when every pick is valid. The result is evenly spaced. |
| SerializableDictionary.OnAfterDeserialize | Assets/TechC/Scripts/Utility/SerializableDictionary.cs:30-39 | The entry list is kept and the cache is filled. The cache has distinct keys, and each key maps to the value of its first occurrence in the entries. |
| SerializableDictionary.ToDictionary | Assets/TechC/Scripts/Utility/SerializableDictionary.cs:41-45 | The result is the cache. An existing cache is returned unchanged, without rebuilding. A missing one is built with first-occurrence values. |
| SerializableDictionary.BuildIsFirstOccurrence | Assets/TechC/Scripts/Utility/SerializableDictionary.cs:33-38 | For every key, the built map holds the value of the key's first entry. Later duplicates are ignored, and absent keys are absent. |
| SerializableDictionary.BuildKeys | Assets/TechC/Scripts/Utility/SerializableDictionary.cs:32-38 | The built map's key set equals the set of keys in the entries. |
| SerializableDictionary.BuildDistinct | Assets/TechC/Scripts/Utility/SerializableDictionary.cs:36-37 | The built dictionary never holds a key twice. |
| SerializableDictionary.BuildSize | Assets/TechC/Scripts/Utility/SerializableDictionary.cs:33-38 | The map's size is at most the number of entries. It equals that number exactly when all keys are distinct. |
| SerializableDictionary.ToDictionaryIdempotent | Assets/TechC/Scripts/Utility/SerializableDictionary.cs:41-45 | A second call returns the same map and leaves the object as the first call left it. |
| SerializableDictionary.ToDictionaryReturnsBuild | Assets/TechC/Scripts/Utility/SerializableDictionary.cs:41-45 | When the cache was built from the entries, the result is that build and stays consistent. |
| CharacterController.DefaultConfig | Assets/TechC/Scripts/MainScene/Player/CharacterController.cs:13-40 | The default lanes are 1 and 2. There are five speed-up distances, and the default speeds satisfy 0 <= moveSpeed <= maxMoveSpeed. |
| CharacterController.Start | Assets/TechC/Scripts/MainScene/Player/CharacterController.cs:109-120 | Lanes start at their configured indices, the speed starts at `moveSpeed` in stage 0, and no movement is held. |
| CharacterController.MoveToLane | Assets/TechC/Scripts/MainScene/Player/CharacterController.cs:230-239 | A lane index inside the array moves the tofu to that lane's x. Any other index is the array-index exception. |
| CharacterController.MaxLaneIndex | Assets/TechC/Scripts/MainScene/Player/CharacterController.cs:61 | The index is the last one `MoveToLane` accepts: it is accepted exactly when some lane exists, and the next index never is. |
| CharacterController.MoveLeftLane | Assets/TechC/Scripts/MainScene/Player/CharacterController.cs:218-222 | The left lane index drops by one, or becomes 0 when it would go below 0. At `int.MinValue` the unchecked subtraction wraps to `int.MaxValue`, and the move throws. The new index is kept even when `MoveToLane` throws. It throws exactly when the new index is past the last lane, and then the tofu's x stays; otherwise the tofu stands at its lane's x. Nothing else changes. It never throws from an index above `int.MinValue` and at most one past the last lane, when lanes exist. |
| CharacterController.MoveRightLane | Assets/TechC/Scripts/MainScene/Player/CharacterController.cs:224-228 | The right lane index rises by one, or becomes `lanes.Length - 1` when it would pass it. At `int.MaxValue` the unchecked addition wraps to `int.MinValue`, and the move throws. The new index is kept even when `MoveToLane` throws. It throws exactly when the new index is negative, and then the tofu's x stays; otherwise the tofu stands at its lane's x. Nothing else changes. It never throws from an index of -1 or more and below `int.MaxValue`, when lanes exist. |
| CharacterController.HoldingLeftReachesLaneZero | Assets/TechC/Scripts/MainScene/Player/CharacterController.cs:218-222 | n frames of left moves from any int32 index L reach lane max(L - n, 0). From `int.MinValue` the first frame wraps to `int.MaxValue` and the walk down starts from there. Nothing but the left tofu changes, and the last frame does not throw once the index is a lane. |
| CharacterController.HoldingRightReachesLastLane | Assets/TechC/Scripts/MainScene/Player/CharacterController.cs:224-228 | n frames of right moves from any int32 index L reach lane min(L + n, lanes.Length - 1). From `int.MaxValue` the first frame wraps to `int.MinValue` and the walk up starts from there. Nothing but the right tofu changes, and the last frame does not throw once the index is a lane. |
| CharacterController.StopAfterHoldingLeft | Assets/TechC/Scripts/MainScene/Player/CharacterController.cs:248-253 | When the initial left lane exists, releasing left after holding it for any number of frames gives exactly the state of releasing it at once. |
| CharacterController.StopAfterHoldingRight | Assets/TechC/Scripts/MainScene/Player/CharacterController.cs:260-265 | When the initial right lane exists, releasing right after holding it for any number of frames gives exactly the state of releasing it at once. |
| CharacterController.HandleMovement | Assets/TechC/Scripts/MainScene/Player/CharacterController.cs:199-209 | A held left moves the left tofu as `MoveLeftLane` does; a held right then moves the right tofu as `MoveRightLane` does, unless the left move threw. A tofu whose direction is not held keeps its lane; flags, speed and stage are untouched. It throws exactly when a move it makes throws, and from tofu on lanes it never throws and keeps them on lanes. |
| CharacterController.StartLeftMovement | Assets/TechC/Scripts/MainScene/Player/CharacterController.cs:243-246 | Pressing left sets only the left movement flag. |
| CharacterController.StartRightMovement | Assets/TechC/Scripts/MainScene/Player/CharacterController.cs:255-258 | Pressing right sets only the right movement flag. |
| CharacterController.StopLeftMovement | Assets/TechC/Scripts/MainScene/Player/CharacterController.cs:248-253 | Releasing left clears the left flag and sets the left lane index to the initial one, even when `MoveToLane` then throws. It throws exactly when the initial lane is outside the array, and then the tofu's x stays; otherwise the tofu stands at that lane's x. Nothing else changes. |
| CharacterController.StopRightMovement | Assets/TechC/Scripts/MainScene/Player/CharacterController.cs:260-265 | Releasing right clears the right flag and sets the right lane index to the initial one, even when `MoveToLane` then throws. It throws exactly when the initial lane is outside the array, and then the tofu's x stays; otherwise the tofu stands at that lane's x. Nothing else changes. |
| CharacterController.IncreaseSpeed | Assets/TechC/Scripts/MainScene/Player/CharacterController.cs:188-197 | The speed grows by `moveSpeed` or is capped at `maxMoveSpeed`. The stage's distance is recorded, and the stage advances by one. |
| CharacterController.UpdateSpeed | Assets/TechC/Scripts/MainScene/Player/CharacterController.cs:146-186 | The stage advances by at most one. It advances exactly when it is a stage from 0 to 4 whose distance is reached. Otherwise nothing changes, including stages past 4 (the default branch). Stages 0 to 3 set the speed to the smaller of speed plus `moveSpeed` and `maxMoveSpeed` and record the stage's distance. Stage 4 sets the speed to exactly `maxMoveSpeed` and keeps the recorded distance. With 0 <= moveSpeed and the speed at most the maximum, the speed neither drops nor exceeds the maximum. The stage never passes the number of distances. |
| CharacterController.SpeedStaysInBounds | Assets/TechC/Scripts/MainScene/Player/CharacterController.cs:146-197 | Over any sequence of frames, the speed never decreases and stays at most `maxMoveSpeed`. The stage stays at most 5 and at most the number of distances, and grows by at most one per frame. |
| CharacterController.FinalStageHoldsMaxSpeed | Assets/TechC/Scripts/MainScene/Player/CharacterController.cs:174-183 | After the final stage, later frames change nothing, and the speed stays at the maximum. |
| CharacterController.RoundToInt | Assets/TechC/Scripts/MainScene/Player/CharacterController.cs:334 | The rounding is within one half of its argument, and an exact half goes to the even neighbour. |
| CharacterController.RoundToIntUnique | Assets/TechC/Scripts/MainScene/Player/CharacterController.cs:334 | The rounding is the only integer within one half with ties broken to even. |
| CharacterController.RoundToIntMonotone | Assets/TechC/Scripts/MainScene/Player/CharacterController.cs:334 | Rounding preserves order. |
| CharacterController.CalculateDodgeScore | Assets/TechC/Scripts/MainScene/Player/CharacterController.cs:330-336 | The dodge bonus is always at least 1, and never less than the rounded raw bonus. Above 1, it is exactly the raw bonus rounded as `Mathf.RoundToInt` rounds (halves to even), so within one half of it. |
| CharacterController.DodgeScoreCloserIsHigher | Assets/TechC/Scripts/MainScene/Player/CharacterController.cs:330-336 | With a positive dodge distance and non-negative base and speed, passing closer never scores less. |
| CharacterController.OnCollisionEnter | Assets/TechC/Scripts/MainScene/Player/CharacterController.cs:343-361 | With the corrected bit test: hitting an object on a wall layer clears both movement flags and puts the game in its result state, keeping the run's score and distance. Any other object changes nothing. |
| CharacterController.OnCollisionEnterAsWritten | Assets/TechC/Scripts/MainScene/Player/CharacterController.cs:343-361 | The same reaction, under the source's signed `> 0` layer test. |
| CharacterController.CollisionAsWrittenMissesLayer31 | Assets/TechC/Scripts/MainScene/Player/CharacterController.cs:345 | The two tests react alike on layers 0 to 30. With the default `wallLayer` of -1, a wall on layer 31 ends the run under the bit test and is ignored as written. |
| CharacterController.HandleMovementAfterWallHit | Assets/TechC/Scripts/MainScene/Player/CharacterController.cs:351-361 | After a wall hit nothing is held, so the next `HandleMovement` changes nothing, and a second hit on the same wall changes nothing either. |
| CharacterController.Update | Assets/TechC/Scripts/MainScene/Player/CharacterController.cs:82-91 | A frame throws exactly when `HandleMovement` throws; it then keeps `HandleMovement`'s partial writes and leaves the game manager alone. Otherwise the frame's distance is added to both the run distance and the score, and nothing else in the manager changes. The player is then exactly `UpdateSpeed` applied to the moved player at the distance before this frame, so the lanes are `HandleMovement`'s. The speed stage advances by one exactly when the frame does not throw and stage 0 to 4's distance is reached by the distance before this frame; the speed bounds are kept. |
| CharacterController.UpdateRunAddsDistances | Assets/TechC/Scripts/MainScene/Player/CharacterController.cs:82-91 | From tofu on lanes, no frame throws: over any frames the run distance and the score each grow by the sum of the frames' distances, the game state stays, and the stage advances at most once per frame. |
| GameManager.Initial | Assets/TechC/Scripts/ManagerScene/GameManager.cs:19-43 | The game starts on the title screen, unpaused, with no distance or score. |
| GameManager.SetState | Assets/TechC/Scripts/ManagerScene/GameManager.cs:200-212 | The state becomes the requested one. Entering Game resets distance and score to 0. Entering any other state changes only the state. |
| GameManager.AddScore | Assets/TechC/Scripts/ManagerScene/GameManager.cs:250 | The score grows by exactly the value, and nothing else changes. |
| GameManager.AddDistance | Assets/TechC/Scripts/ManagerScene/GameManager.cs:251 | The distance grows by exactly the value, and nothing else changes. |
| GameManager.ChangeTitleState | Assets/TechC/Scripts/ManagerScene/GameManager.cs:252 | The title state keeps the last run's score and distance and the pause flag. |
| GameManager.ChangeGameState | Assets/TechC/Scripts/ManagerScene/GameManager.cs:253 | Entering the game starts a run with score and distance at 0, keeping the pause flag. |
| GameManager.ChangeResultState | Assets/TechC/Scripts/ManagerScene/GameManager.cs:254 | The result state keeps the run's score and distance and the pause flag. |
| GameManager.Update | Assets/TechC/Scripts/ManagerScene/GameManager.cs:196 | `DeltaTime` is 0 while paused and the frame's delta otherwise. Nothing else changes. |
| GameManager.DeltaTimeIsPerFrame | Assets/TechC/Scripts/ManagerScene/GameManager.cs:196 | An earlier frame's delta leaves no trace in the next, and while paused every frame's real delta gives the same state. |
| GameManager.TruncateName | Assets/TechC/Scripts/ManagerScene/GameManager.cs:128-129 | The saved name is the input's prefix of length min(len, 5). |
| GameManager.SavedPlayerName | Assets/TechC/Scripts/ManagerScene/GameManager.cs:125-129 | A null name throws before anything is saved. Otherwise the saved name is a prefix of the input of at most 5 characters, and a name of at most 5 characters is saved unchanged. |
| GameManager.ScoreIsSumSinceRunStart | Assets/TechC/Scripts/ManagerScene/GameManager.cs:200-212 | After a run starts, the score is the sum of the values added since. The distance stays 0 and the state stays Game. |
| GameManager.ResultKeepsRun | Assets/TechC/Scripts/ManagerScene/GameManager.cs:200-212 | Entering Result keeps score and distance. Starting a new run from Result is the same as starting it directly. |
| GameManager.TruncateNameIdempotent | Assets/TechC/Scripts/ManagerScene/GameManager.cs:128-129 | Truncating twice is truncating once, and names of at most 5 characters are kept. |
| ResultManager.IndexOf | Assets/TechC/Scripts/ManagerScene/ResultManager.cs:144 | `IndexOf` is -1 exactly when the character is absent. Otherwise it is the position of its first occurrence. |
| ResultManager.BeforeHash | Assets/TechC/Scripts/ManagerScene/ResultManager.cs:144-148 | The name is cut at its first '#'. The result is a prefix with no '#', followed in the input by '#' when shorter. |
| ResultManager.CleanPlayerName | Assets/TechC/Scripts/ManagerScene/ResultManager.cs:138-158 | The result is non-empty, at most 5 characters long and free of '#'. It is "Guest" or a prefix of the input. A null or empty name gives "Guest", and so does a name that starts with '#'. |
| ResultManager.CleanPlayerNameKeepsShortNames | Assets/TechC/Scripts/ManagerScene/ResultManager.cs:138-158 | A non-empty name of at most 5 characters with no '#' is returned unchanged. |
| ResultManager.CleanPlayerNameIdempotent | Assets/TechC/Scripts/ManagerScene/ResultManager.cs:138-158 | Cleaning a cleaned name changes nothing. |
| ResultManager.CleanPlayerNameTruncatesBeforeHash | Assets/TechC/Scripts/ManagerScene/ResultManager.cs:144-157 | For a name not starting with '#', the result is the part before the first '#', truncated as `SavePlayerNameAsync` truncates. |
| Singleton.Awake | Assets/TechC/Scripts/ManagerScene/Singleton.cs:21-44 | An empty slot takes this instance and runs `Init` once, then `DontDestroyOnLoad` if enabled. An occupied slot is untouched, and this instance's GameObject or component is destroyed without `Init`. |
| Singleton.OnDestroy | Assets/TechC/Scripts/ManagerScene/Singleton.cs:46-53 | Only the holder clears the slot and runs `OnRelease`. Any other instance changes nothing. |
| Singleton.IsValidIffInitPending | Assets/TechC/Scripts/ManagerScene/Singleton.cs:17-19 | `IsValid` holds after a lifecycle from an empty slot exactly when some `Init` has not yet been matched by an `OnRelease`. |
| Singleton.InitAndReleaseAlternate | Assets/TechC/Scripts/ManagerScene/Singleton.cs:21-53 | Over any lifecycle from an empty slot, `Init` runs exactly once more than `OnRelease` while the slot is held, and equally often when it is empty. |
| Singleton.HolderIsLiveAwakened | Assets/TechC/Scripts/ManagerScene/Singleton.cs:17-53 | Starting from an empty slot, the registered instance is one that woke up and has not been destroyed since. |
| WallCollider.OnCollisionEnter | Assets/TechC/Scripts/MainScene/Wall/WallCollider.cs:18-40 | With the corrected bit test: game over fires exactly when the wall has not triggered and the other object's layer is in `playerLayer`. On firing, the latch is set and exactly that object is deactivated. Otherwise nothing happens. |
| WallCollider.GameOverAtMostOnce | Assets/TechC/Scripts/MainScene/Wall/WallCollider.cs:16-37 | Over any sequence of collisions, game over fires at most once. A triggered wall ignores everything after, and the latch never resets. |
| WallCollider.OnCollisionEnterAsWritten | Assets/TechC/Scripts/MainScene/Wall/WallCollider.cs:18-40 | The same latch, under the source's signed `> 0` layer test. |
| WallCollider.CollisionAsWrittenMissesLayer31 | Assets/TechC/Scripts/MainScene/Wall/WallCollider.cs:23 | The two tests react alike for objects on layers 0 to 30. A player on layer 31 whose bit is in the mask fires game over under the bit test but passes through as written. |
| LayerMask.Contains | Assets/TechC/Scripts/MainScene/Wall/WallCollider.cs:23 | The layer is in the mask exactly when the mask's bit number `layer` is 1. |
| LayerMask.ContainsAsWritten | Assets/TechC/Scripts/MainScene/Player/CharacterController.cs:345 | The signed `> 0` test accepts exactly the layers in the mask other than 31. |
| LayerMask.ContainsIsMembership | Assets/TechC/Scripts/MainScene/Wall/WallCollider.cs:23 | Masks behave as layer sets: the empty mask holds none, the full mask `-1` holds all, and bitwise or is union. |
| LayerMask.AsWrittenAgreesBelowSignBit | Assets/TechC/Scripts/MainScene/Wall/WallCollider.cs:23 | For layers 0 to 30, the signed `> 0` test agrees with the bit test. |
| LayerMask.AsWrittenMissesLayer31 | Assets/TechC/Scripts/MainScene/Player/CharacterController.cs:345 | Layer 31 is in the full mask, but the signed `> 0` test rejects it. |
| TransformHelper.ResetWorldTransform | Assets/TechC/Scripts/Utility/TransformHelper.cs:15-21 | A transform gets position zero, identity rotation and unit scale, and null stays null. |
| TransformHelper.ResetWorldTransformIdempotent | Assets/TechC/Scripts/Utility/TransformHelper.cs:15-21 | Resetting twice is resetting once, and null is a no-op. |
| TransformHelper.GetPositionXZ | Assets/TechC/Scripts/Utility/TransformHelper.cs:38-43 | y is zeroed while x and z are kept. A null transform gives zero. |
| TransformHelper.GetPositionXZIsProjection | Assets/TechC/Scripts/Utility/TransformHelper.cs:38-43 | Projecting a projected position changes nothing. |
| TransformHelper.IsCloseTo | Assets/TechC/Scripts/Utility/TransformHelper.cs:53 | a is close to b exactly when it lies within the threshold of b on either side. |
| TransformHelper.IsCloseToSymmetric | Assets/TechC/Scripts/Utility/TransformHelper.cs:53 | Closeness is symmetric, and the default threshold is 2. |
| TransformHelper.WithReplacesOneComponent | Assets/TechC/Scripts/Utility/TransformHelper.cs:56-58 | `WithX`/`WithY`/`WithZ` act on independent components: replacements of different components commute, replacing twice keeps the last value, and replacing with the current value changes nothing. |
| TransformHelper.AddComposes | Assets/TechC/Scripts/Utility/TransformHelper.cs:61-63 | Adding 0 changes nothing. Two additions compose into one of their sum, and adding -a undoes adding a, on each axis. |
| TransformHelper.MulTouchesOneComponent | Assets/TechC/Scripts/Utility/TransformHelper.cs:66-68 | Multiplying by 1 changes nothing. Each multiplier leaves the other two components alone, and multiplying by 0 zeroes its component. |
| TransformHelper.IsCloseToAsWritten | Assets/TechC/Scripts/Utility/TransformHelper.cs:53 | In 32-bit int arithmetic: `Mathf.Abs` throws exactly when `a - b` wraps to `int.MinValue`; otherwise the answer is whether the wrapped difference lies within the threshold on either side. |
| TransformHelper.IsCloseToAsWrittenAgrees | Assets/TechC/Scripts/Utility/TransformHelper.cs:53 | When a - b fits in 32 bits, the source's int arithmetic gives the exact answer. |
| TransformHelper.IsCloseToAsWrittenWraps | Assets/TechC/Scripts/Utility/TransformHelper.cs:53 | `int.MaxValue` and `int.MinValue` are reported close after the subtraction wraps, though they are not. |
| AudioData.FindIndex | Assets/TechC/Scripts/ManagerScene/AudioData.cs:72 | `List.Find` gives the first matching position, and nothing exactly when no element matches. |
| AudioData.GetBgm | Assets/TechC/Scripts/ManagerScene/AudioData.cs:70-73 | The result has the queried id and is the earliest entry with it. It is null exactly when no entry has the id. |
| AudioData.GetSe | Assets/TechC/Scripts/ManagerScene/AudioData.cs:78-81 | The result has the queried id and is the earliest entry with it. It is null exactly when no entry has the id. |
| AudioData.GetBgmIgnoresLaterEntries | Assets/TechC/Scripts/ManagerScene/AudioData.cs:72 | Entries appended after a match never change what the id finds. |
| AudioData.GetSeIgnoresLaterEntries | Assets/TechC/Scripts/ManagerScene/AudioData.cs:80 | Entries appended after a match never change what the id finds. |
| DelayUtility.DelayFrom | Assets/TechC/Scripts/Utility/DelayUtility.cs:89-100 | The callback fires at the first loop check whose timer (start plus unpaused time) has reached the delay. Otherwise the timer is the unpaused time of the whole trace and still below the delay. |
| DelayUtility.RunAfterDelayWithPause | Assets/TechC/Scripts/Utility/DelayUtility.cs:87-101 | A delay of 0 or less fires at once, with no frame yielded. Otherwise the callback fires at the first frame count whose unpaused time reaches the delay, with the timer equal to that unpaused time; while waiting, the timer is the whole trace's unpaused time and still below the delay. |
| DelayUtility.DelayCallbacks | Assets/TechC/Scripts/Utility/DelayUtility.cs:100 | The callback runs at most once. It runs exactly when the delay fired and the callback is not null. |
| DelayUtility.PausedFramesAddNothing | Assets/TechC/Scripts/Utility/DelayUtility.cs:92-96 | Paused frames add no time. |
| DelayUtility.PausedFrameIsTransparent | Assets/TechC/Scripts/Utility/DelayUtility.cs:92-96 | Inserting a paused frame anywhere in the trace leaves the timer unchanged. |
| DelayUtility.ElapsedAfterIsProduct | Assets/TechC/Scripts/Utility/DelayUtility.cs:119 | n interval additions make n times the interval. |
| DelayUtility.RunRepeatedly | Assets/TechC/Scripts/Utility/DelayUtility.cs:112-121 | Whenever the loop ends (a positive interval or a duration of at most 0), the number of passes is the least n with n intervals at least the duration. It is 0 exactly when the duration is at most 0, and a null callback is called 0 times. |
| DelayUtility.RunRepeatedlyNeverEnds | Assets/TechC/Scripts/Utility/DelayUtility.cs:115-120 | With a non-positive interval and a positive duration, the loop condition holds after every number of passes. |
| DelayUtility.RepeatCountUnique | Assets/TechC/Scripts/Utility/DelayUtility.cs:115-120 | The pass count is unique. |
| DelayUtility.FromLoopHead | Assets/TechC/Scripts/Utility/DelayUtility.cs:135-143 | At the loop check, a pass starts (invoking a non-null callback) exactly when time remains and the frame is not paused. At most one pass starts, and the loop ends exactly when time is up. |
| DelayUtility.RepeatStep | Assets/TechC/Scripts/Utility/DelayUtility.cs:132-157 | A paused frame starts no pass. A frame starts at most one pass, and a finished loop stays finished. |
| DelayUtility.RepeatCallbacks | Assets/TechC/Scripts/Utility/DelayUtility.cs:143 | The callback runs at most once per pass, and on every pass exactly when it is not null. |
| DelayUtility.RepeatStepKeepsInvariant | Assets/TechC/Scripts/Utility/DelayUtility.cs:132-157 | Each frame keeps one interval per completed pass. A hang needs a non-positive interval, and finishing happens at the pass count. |
| DelayUtility.RepeatRunKeepsInvariant | Assets/TechC/Scripts/Utility/DelayUtility.cs:132-157 | The invariant holds over any trace, with at most one pass started per frame. |
| DelayUtility.RepeatWithPauseMatchesRepeat | Assets/TechC/Scripts/Utility/DelayUtility.cs:112-157 | When the pause-aware repeat finishes, it has made as many passes as `RunRepeatedly`, and invoked the callback that many times, or none for a null callback. It hangs only for a non-positive interval and positive duration. |
| DelayUtility.IntervalWaitsBeforeNextCall | Assets/TechC/Scripts/Utility/DelayUtility.cs:144-154 | After a pass starts, as long as the interval timer is below `interval` before every frame, no further pass starts and the timer gathers exactly the frames' unpaused time. |
| DelayUtility.PausedFramesNeverCallBack | Assets/TechC/Scripts/Utility/DelayUtility.cs:138-151 | A run of paused frames starts no pass. |
| DelayUtility.RunRepeatedlyWhile | Assets/TechC/Scripts/Utility/DelayUtility.cs:167-174 | The loop makes one pass per continuing check up to the first check that stops it. It stops exactly when such a check exists, and with a null predicate it never stops. |
| DelayUtility.RunRepeatedlyWhileStopsAtFirstFalse | Assets/TechC/Scripts/Utility/DelayUtility.cs:169 | Predicate answers after the loop stopped are never consulted. |

## Left out

- The `ObjectPool` class and `StageFactory` are not part of this model. Pool calls are recorded, not executed. The handle of the k-th `GetObj` is stage k, and no reuse or activation invariant of the pool is claimed.
- Unity physics and scene:
  - Rigidbody forward motion and `MoveForward`.
  - The dodge raycast, the processed-wall set and its coroutine, so `CheckDodge` is absent. `CalculateDodgeScore` is modelled on its own.
  - Camera, UI, input dispatch, fades, scene loading and the editor tool.
- Services: leaderboards, Unity Services, authentication, `PlayerPrefs`, ads and async saving. Only the name handling of `SavePlayerNameAsync` is modelled: the throw on a null name and the truncation.
- Logging (`Debug.Log`) and the stage names it prints.
- `float` is exact `real`: no rounding drift in sums, timers or the weight walk. `Random.value` is a parameter in [0, 1], and its distribution is not modelled.
- StageManager.ShouldSpawn: `Vector3.Distance(a, b) < t` is stated as `0 < t` and squared distance `< t * t`. This is exact over reals, and no square root is modelled.
- StageManager.GetRandomStage: dictionary enumeration order is taken to be the entries' first-occurrence order, as `Dictionary` gives when only adding.
- CharacterController.CalculateDodgeScore: requires a non-zero `dodgeDistance`. The source's division by zero (a NaN or infinity rounded to an int) is not modelled, and neither is the int32 overflow of `Mathf.RoundToInt` on huge values.
- CharacterController.MoveToLane: only the lane's x is modelled. The tofu's y and z are kept, as the source keeps them, and are not stored.
- CharacterController.Update: the dodge check is skipped, and the frame's distance is an input. After a frame that throws, the source does not update `lastPos`, so its next distance also covers the frame that threw; the caller supplies that distance.
- Exceptions in the player callbacks are kept as a `threw` flag; Unity's logging of the exception and the unwinding of the rest of the call stack are not modelled.
- DelayUtility.RunRepeatedly: requires a positive interval unless the duration is at most 0. With a non-positive interval and a positive duration the loop runs forever, as `RunRepeatedlyNeverEnds` states.
- DelayUtility.RepeatStep: a frame asks the pause function once, and its answer holds for the whole frame. The source asks it at each check inside the frame.
- DelayUtility.FromLoopHead: with a non-positive interval and time left, the source's frame never yields. It starts pass after pass within that one frame, invoking the callback without end. The model counts the first pass and stops in `Hung`, so `passes` does not count the rest. `DelayUtility.RepeatStep` and the lemmas over it count the same way.
- GameManager.TruncateName: counts Unicode scalar values (Dafny's `char`). C#'s `string.Length` and `Substring` count UTF-16 code units, so a name with characters outside the Basic Multilingual Plane keeps fewer characters in the source.
- ResultManager.IndexOf: positions are counted in `char`s as above, not in UTF-16 code units.
- ResultManager.CleanPlayerName: the length limit is in `char`s as above, not in UTF-16 code units.
- `RunAfterDelayCoroutine`, `StartDelayedAction` and the other `Start*` wrappers only hand a loop to `StartCoroutine`. `RunRepeatedlyWhileWithPause` combines two modelled loops; none of these are modelled.
- `ResetLocalTransform`, `DestroyChildren`, `SetUniformScale` and `LookAtLockedAxis` touch only the engine's transform hierarchy and are not modelled.
- Singleton: `Init`, `OnRelease` and `DontDestroyOnLoad` are recorded as effects, not run.

## Findings

| source | as written | input that shows it | evidently intended | confidence | as-written member | corrected member |
|---|---|---|---|---|---|---|
| Assets/TechC/Scripts/MainScene/Wall/WallCollider.cs:23 | `(playerLayer.value & (1 << layer)) > 0` on a signed 32-bit int | a player on layer 31 with its bit set in `playerLayer`: the AND is negative, so no game over | test the bit with `!= 0` | not executed | WallCollider.OnCollisionEnterAsWritten | WallCollider.OnCollisionEnter |
| Assets/TechC/Scripts/MainScene/Player/CharacterController.cs:345 | the same signed `> 0` layer test for `wallLayer` | the default `wallLayer` of -1 and a wall on layer 31: the collision is ignored | test the bit with `!= 0` | not executed | CharacterController.OnCollisionEnterAsWritten | CharacterController.OnCollisionEnter |
| Assets/TechC/Scripts/Utility/TransformHelper.cs:53 | `Mathf.Abs(a - b) <= threshold` in 32-bit int arithmetic | `a = int.MaxValue`, `b = int.MinValue`: `a - b` wraps to -1, so they are reported close | compare the exact difference | not executed | TransformHelper.IsCloseToAsWritten | TransformHelper.IsCloseTo |

=== FILE: audio_data.dfy ===
/**
 * `AudioData`: the BGM and SE tables and their lookups by id.  Clips are
 * referenced by identity; a lookup returns the first entry with the id,
 * or null.
 */
module AudioData {
  import opened Nullable

  datatype BgmId = NoBgm | TitleBgm | Stage1 | Stage2
  datatype SeId = NoSe | ButtonClick | MenuOpen | MenuClose

  datatype BgmInfo = BgmInfo(id: BgmId, clip: nat, volume: real, pitch: real, loop: bool, fadeInTime: real, fadeOutTime: real)
  datatype SeInfo = SeInfo(id: SeId, clip: nat, volume: real, pitch: real, loop: bool)

  datatype Data = Data(bgmList: seq<BgmInfo>, seList: seq<SeInfo>)

  /** `List<T>.Find`: the index of the first element that matches, if any. */
  function FindIndex<T>(xs: seq<T>, matches: T -> bool): (r: Option<nat>)
    ensures r.Some? ==> (r.value < |xs| && matches(xs[r.value])
                          && forall j | 0 <= j < r.value :: !matches(xs[j]))
    ensures r.None? <==> forall j | 0 <= j < |xs| :: !matches(xs[j])
    decreases |xs|
  {
    if |xs| == 0 then None
    else if matches(xs[0]) then Some(0)
    else
      match FindIndex(xs[1..], matches)
      case None => None
      case Some(i) => Some(i + 1)
  }

  /** `GetBGM`: the first BGM entry with the id, or null when none has it. */
  function GetBgm(data: Data, id: BgmId): (r: Option<BgmInfo>)
    ensures r.Some? ==> r.value.id == id && exists i | 0 <= i < |data.bgmList| ::
      data.bgmList[i] == r.value && forall j | 0 <= j < i :: data.bgmList[j].id != id
    ensures r.None? <==> forall b | b in data.bgmList :: b.id != id
  {
    match FindIndex(data.bgmList, (b: BgmInfo) => b.id == id)
    case None => None
    case Some(i) => Some(data.bgmList[i])
  }

  /** `GetSE`: the first SE entry with the id, or null when none has it. */
  function GetSe(data: Data, id: SeId): (r: Option<SeInfo>)
    ensures r.Some? ==> r.value.id == id && exists i | 0 <= i < |data.seList| ::
      data.seList[i] == r.value && forall j | 0 <= j < i :: data.seList[j].id != id
    ensures r.None? <==> forall e | e in data.seList :: e.id != id
  {
    match FindIndex(data.seList, (e: SeInfo) => e.id == id)
    case None => None
    case Some(i) => Some(data.seList[i])
  }

  /** A match found in a list is still the one found after the list grows at its end. */
  lemma {:induction false} FindIndexIgnoresSuffix<T>(xs: seq<T>, more: seq<T>, matches: T -> bool)
    requires FindIndex(xs, matches).Some?
    ensures FindIndex(xs + more, matches) == FindIndex(xs, matches)
    decreases |xs|
  {
    assert (xs + more)[0] == xs[0];
    if !matches(xs[0]) {
      assert (xs + more)[1..] == xs[1..] + more;
      FindIndexIgnoresSuffix(xs[1..], more, matches);
    }
  }

  /** Adding BGM entries after the table never changes what an id already present finds. */
  lemma GetBgmIgnoresLaterEntries(data: Data, more: seq<BgmInfo>, id: BgmId)
    requires GetBgm(data, id).Some?
    ensures GetBgm(data.(bgmList := data.bgmList + more), id) == GetBgm(data, id)
  {
    var matches := (b: BgmInfo) => b.id == id;
    FindIndexIgnoresSuffix(data.bgmList, more, matches);
    var i := FindIndex(data.bgmList, matches).value;
    assert (data.bgmList + more)[i] == data.bgmList[i];
  }

  /** Adding SE entries after the table never changes what an id already present finds. */
  lemma GetSeIgnoresLaterEntries(data: Data, more: seq<SeInfo>, id: SeId)
    requires GetSe(data, id).Some?
    ensures GetSe(data.(seList := data.seList + more), id) == GetSe(data, id)
  {
    var matches := (e: SeInfo) => e.id == id;
    FindIndexIgnoresSuffix(data.seList, more, matches);
    var i := FindIndex(data.seList, matches).value;
    assert (data.seList + more)[i] == data.seList[i];
  }
}

=== FILE: character_controller.dfy ===
/**
 * `CharacterController`: the two tofu pieces' lane indices, the staged
 * speed-up driven by the run distance, the dodge bonus and the reaction
 * to hitting a wall.  Rigidbody motion and the dodge raycast are not
 * modelled; the distance travelled in a frame is an input.
 */
module CharacterController {
  import opened Nullable
  import opened LayerMask
  import GM = GameManager
  import TH = TransformHelper

  /** A C# array's x positions: its `Length` is an `int`. */
  type Lanes = s: seq<real> | |s| < 0x8000_0000

  /** The inspector settings. `lanes` holds each lane transform's x position. */
  datatype Config = Config(
    lanes: Lanes,
    initLeftTofuLane: TH.Int32,
    initRightTofuLane: TH.Int32,
    moveSpeed: real,
    maxMoveSpeed: real,
    speedIncreaseDistances: seq<real>,
    dodgeDistance: real,
    dodgeBaseScore: int,
    wallLayer: bv32)

  /** The inspector defaults: speeds 5 and 20, five speed-up distances, dodge within 2 for a base of 10, every layer a wall. */
  function DefaultConfig(lanes: Lanes): (cfg: Config)
    ensures cfg.initLeftTofuLane == 1 && cfg.initRightTofuLane == 2
    ensures |cfg.speedIncreaseDistances| == 5
    ensures 0.0 <= cfg.moveSpeed <= cfg.maxMoveSpeed
  {
    Config(lanes, 1, 2, 5.0, 20.0, [100.0, 200.0, 280.0, 340.0, 380.0], 2.0, 10, 0xFFFF_FFFF)
  }

  /** One tofu piece: its current lane index (a C# `int`) and its x position. */
  datatype Tofu = Tofu(lane: TH.Int32, x: real)

  datatype Player = Player(
    left: Tofu,
    right: Tofu,
    isMovingLeft: bool,
    isMovingRight: bool,
    currentMoveSpeed: real,
    lastSpeedIncreaseDistance: real,
    currentSpeedStage: nat)

  /** `InitializeLanes` and `InitializeSpeed`; the tofu stay where the scene placed them. */
  function Start(cfg: Config, leftX: real, rightX: real): (p: Player)
    ensures p.left.lane == cfg.initLeftTofuLane && p.right.lane == cfg.initRightTofuLane
    ensures p.currentMoveSpeed == cfg.moveSpeed && p.currentSpeedStage == 0
    ensures !p.isMovingLeft && !p.isMovingRight
  {
    Player(Tofu(cfg.initLeftTofuLane, leftX), Tofu(cfg.initRightTofuLane, rightX), false, false, cfg.moveSpeed, 0.0, 0)
  }

  // ---------------------------------------------------------------------
  // Lanes
  // ---------------------------------------------------------------------

  /**
   * `MoveToLane`: the tofu takes the lane's x position.  An index outside
   * `lanes` throws in the source, which is `None` here.
   */
  function MoveToLane(cfg: Config, lane: int): (r: Option<Tofu>)
    ensures r.Some? <==> 0 <= lane < |cfg.lanes|
    ensures r.Some? ==> r.value.lane == lane && r.value.x == cfg.lanes[lane]
  {
    if 0 <= lane < |cfg.lanes| then Some(Tofu(lane, cfg.lanes[lane])) else None
  }

  /** `MaxLaneIndex`: the last lane a tofu can be moved to. */
  function MaxLaneIndex(cfg: Config): (m: int)
    ensures MoveToLane(cfg, m).Some? <==> 0 < |cfg.lanes|
    ensures MoveToLane(cfg, m + 1).None?
  {
    |cfg.lanes| - 1
  }

  /**
   * The player after a lane callback, and whether `MoveToLane` threw on
   * the way.  The source writes the lane index before it indexes `lanes`,
   * so a throw keeps the new index and leaves the tofu's x where it was.
   */
  datatype Step = Step(player: Player, threw: bool)

  /** Both lane indices name a lane. */
  predicate OnLanes(cfg: Config, p: Player) {
    0 <= p.left.lane <= MaxLaneIndex(cfg) && 0 <= p.right.lane <= MaxLaneIndex(cfg)
  }

  /**
   * `MoveLeftLane`: one lane to the left, never below lane 0.  The
   * unchecked `lane - 1` wraps at `int.MinValue` to `int.MaxValue`, which
   * is past every lane.
   */
  function MoveLeftLane(cfg: Config, p: Player): (r: Step)
    ensures 0 < p.left.lane ==> r.player.left.lane == p.left.lane - 1
    ensures -0x8000_0000 < p.left.lane <= 0 ==> r.player.left.lane == 0
    ensures p.left.lane == -0x8000_0000 ==> r.player.left.lane == 0x7FFF_FFFF && r.threw
    ensures r.threw <==> MaxLaneIndex(cfg) < r.player.left.lane
    ensures !r.threw ==> r.player.left.x == cfg.lanes[r.player.left.lane]
    ensures r.threw ==> r.player.left.x == p.left.x
    ensures r.player.(left := p.left) == p
    ensures 0 < |cfg.lanes| && -0x8000_0000 < p.left.lane <= MaxLaneIndex(cfg) + 1 ==> !r.threw
  {
    var next := TH.Wrap32(p.left.lane - 1);
    var lane := if next < 0 then 0 else next;
    match MoveToLane(cfg, lane)
    case None => Step(p.(left := p.left.(lane := lane)), true)
    case Some(t) => Step(p.(left := t), false)
  }

  /**
   * `MoveRightLane`: one lane to the right, never past `MaxLaneIndex`.
   * The unchecked `lane + 1` wraps at `int.MaxValue` to `int.MinValue`,
   * which is below every lane.
   */
  function MoveRightLane(cfg: Config, p: Player): (r: Step)
    ensures p.right.lane < MaxLaneIndex(cfg) ==> r.player.right.lane == p.right.lane + 1
    ensures MaxLaneIndex(cfg) <= p.right.lane < 0x7FFF_FFFF ==> r.player.right.lane == MaxLaneIndex(cfg)
    ensures p.right.lane == 0x7FFF_FFFF ==> r.player.right.lane == -0x8000_0000 && r.threw
    ensures r.threw <==> r.player.right.lane < 0
    ensures !r.threw ==> r.player.right.x == cfg.lanes[r.player.right.lane]
    ensures r.threw ==> r.player.right.x == p.right.x
    ensures r.player.(right := p.right) == p
    ensures 0 < |cfg.lanes| && -1 <= p.right.lane < 0x7FFF_FFFF ==> !r.threw
  {
    var next := TH.Wrap32(p.right.lane + 1);
    var lane := if MaxLaneIndex(cfg) < next then MaxLaneIndex(cfg) else next;
    match MoveToLane(cfg, lane)
    case None => Step(p.(right := p.right.(lane := lane)), true)
    case Some(t) => Step(p.(right := t), false)
  }

  /**
   * `HandleMovement`: a held direction moves its tofu one lane each
   * frame, left first; a throw on the left skips the right.
   */
  function HandleMovement(cfg: Config, p: Player): (r: Step)
    ensures !p.isMovingLeft && !p.isMovingRight ==> r == Step(p, false)
    ensures r.player.(left := p.left, right := p.right) == p
    ensures r.player.left == if p.isMovingLeft then MoveLeftLane(cfg, p).player.left else p.left
    ensures r.player.right
      == if p.isMovingRight && !(p.isMovingLeft && MoveLeftLane(cfg, p).threw)
         then MoveRightLane(cfg, p).player.right else p.right
    ensures r.threw <==> (p.isMovingLeft && MoveLeftLane(cfg, p).threw) || (p.isMovingRight && MoveRightLane(cfg, p).threw)
    ensures OnLanes(cfg, p) ==> !r.threw && OnLanes(cfg, r.player)
  {
    var afterLeft := if p.isMovingLeft then MoveLeftLane(cfg, p) else Step(p, false);
    if afterLeft.threw then afterLeft
    else if p.isMovingRight then MoveRightLane(cfg, afterLeft.player)
    else afterLeft
  }

  function StartLeftMovement(p: Player): (r: Player)
    ensures r.isMovingLeft && r.(isMovingLeft := p.isMovingLeft) == p
  {
    p.(isMovingLeft := true)
  }

  function StartRightMovement(p: Player): (r: Player)
    ensures r.isMovingRight && r.(isMovingRight := p.isMovingRight) == p
  {
    p.(isMovingRight := true)
  }

  /** `StopLeftMovement`: releasing left stops the movement and puts the left tofu back on its initial lane. */
  function StopLeftMovement(cfg: Config, p: Player): (r: Step)
    ensures !r.player.isMovingLeft && r.player.left.lane == cfg.initLeftTofuLane
    ensures r.threw <==> !(0 <= cfg.initLeftTofuLane <= MaxLaneIndex(cfg))
    ensures !r.threw ==> r.player.left.x == cfg.lanes[cfg.initLeftTofuLane]
    ensures r.threw ==> r.player.left.x == p.left.x
    ensures r.player.(isMovingLeft := p.isMovingLeft, left := p.left) == p
  {
    var released := p.(isMovingLeft := false, left := p.left.(lane := cfg.initLeftTofuLane));
    match MoveToLane(cfg, cfg.initLeftTofuLane)
    case None => Step(released, true)
    case Some(t) => Step(released.(left := t), false)
  }

  /** `StopRightMovement`: releasing right stops the movement and puts the right tofu back on its initial lane. */
  function StopRightMovement(cfg: Config, p: Player): (r: Step)
    ensures !r.player.isMovingRight && r.player.right.lane == cfg.initRightTofuLane
    ensures r.threw <==> !(0 <= cfg.initRightTofuLane <= MaxLaneIndex(cfg))
    ensures !r.threw ==> r.player.right.x == cfg.lanes[cfg.initRightTofuLane]
    ensures r.threw ==> r.player.right.x == p.right.x
    ensures r.player.(isMovingRight := p.isMovingRight, right := p.right) == p
  {
    var released := p.(isMovingRight := false, right := p.right.(lane := cfg.initRightTofuLane));
    match MoveToLane(cfg, cfg.initRightTofuLane)
    case None => Step(released, true)
    case Some(t) => Step(released.(right := t), false)
  }

  /** `n` frames of `MoveLeftLane`; a throw ends only its own frame. */
  function MoveLeftTimes(cfg: Config, p: Player, n: nat): Step
    decreases n
  {
    if n == 0 then Step(p, false)
    else if n == 1 then MoveLeftLane(cfg, p)
    else MoveLeftTimes(cfg, MoveLeftLane(cfg, p).player, n - 1)
  }

  /**
   * Holding left walks the tofu down to lane 0 and keeps it there, from
   * any starting index; from `int.MinValue` the first frame wraps to
   * `int.MaxValue` and the walk down starts there.  The last frame cannot
   * throw once the index is in range, and nothing but the left tofu
   * changes.
   */
  lemma {:induction false} HoldingLeftReachesLaneZero(cfg: Config, p: Player, n: nat)
    ensures MoveLeftTimes(cfg, p, n).player.left.lane
      == if n == 0 then p.left.lane
         else if p.left.lane == -0x8000_0000 then (if 0x7FFF_FFFF <= n - 1 then 0 else 0x7FFF_FFFF - (n - 1))
         else if p.left.lane <= n then 0 else p.left.lane - n
    ensures MoveLeftTimes(cfg, p, n).player.(left := p.left) == p
    ensures 0 < n && 0 < |cfg.lanes| && MoveLeftTimes(cfg, p, n).player.left.lane <= MaxLaneIndex(cfg)
      ==> !MoveLeftTimes(cfg, p, n).threw
    decreases n
  {
    if n > 1 {
      var q := MoveLeftLane(cfg, p).player;
      HoldingLeftReachesLaneZero(cfg, q, n - 1);
    }
  }

  /** `n` frames of `MoveRightLane`; a throw ends only its own frame. */
  function MoveRightTimes(cfg: Config, p: Player, n: nat): Step
    decreases n
  {
    if n == 0 then Step(p, false)
    else if n == 1 then MoveRightLane(cfg, p)
    else MoveRightTimes(cfg, MoveRightLane(cfg, p).player, n - 1)
  }

  /**
   * Holding right walks the tofu up to the last lane and keeps it there,
   * from any starting index; from `int.MaxValue` the first frame wraps to
   * `int.MinValue` and the walk up starts there.  The last frame cannot
   * throw once the index is in range, and nothing but the right tofu
   * changes.
   */
  lemma {:induction false} HoldingRightReachesLastLane(cfg: Config, p: Player, n: nat)
    ensures MoveRightTimes(cfg, p, n).player.right.lane
      == if n == 0 then p.right.lane
         else if p.right.lane == 0x7FFF_FFFF then
           (if MaxLaneIndex(cfg) <= -0x8000_0000 + (n - 1) then MaxLaneIndex(cfg) else -0x8000_0000 + (n - 1))
         else if MaxLaneIndex(cfg) <= p.right.lane + n then MaxLaneIndex(cfg) else p.right.lane + n
    ensures MoveRightTimes(cfg, p, n).player.(right := p.right) == p
    ensures 0 < n && 0 <= MoveRightTimes(cfg, p, n).player.right.lane ==> !MoveRightTimes(cfg, p, n).threw
    decreases n
  {
    if n > 1 {
      var q := MoveRightLane(cfg, p).player;
      HoldingRightReachesLastLane(cfg, q, n - 1);
    }
  }

  /** Releasing left after holding it for any number of frames ends exactly as releasing it at once. */
  lemma StopAfterHoldingLeft(cfg: Config, p: Player, n: nat)
    requires 0 <= cfg.initLeftTofuLane <= MaxLaneIndex(cfg)
    ensures StopLeftMovement(cfg, MoveLeftTimes(cfg, p, n).player) == StopLeftMovement(cfg, p)
  {
    HoldingLeftReachesLaneZero(cfg, p, n);
  }

  /** Releasing right after holding it for any number of frames ends exactly as releasing it at once. */
  lemma StopAfterHoldingRight(cfg: Config, p: Player, n: nat)
    requires 0 <= cfg.initRightTofuLane <= MaxLaneIndex(cfg)
    ensures StopRightMovement(cfg, MoveRightTimes(cfg, p, n).player) == StopRightMovement(cfg, p)
  {
    HoldingRightReachesLastLane(cfg, p, n);
  }

  // ---------------------------------------------------------------------
  // Staged speed-up
  // ---------------------------------------------------------------------

  /** `IncreaseSpeed`: one step of `moveSpeed`, capped at `maxMoveSpeed`, and the next stage. */
  function IncreaseSpeed(cfg: Config, p: Player, stageIndex: nat): (r: Player)
    requires stageIndex < |cfg.speedIncreaseDistances|
    ensures r.currentMoveSpeed <= cfg.maxMoveSpeed
    ensures r.currentMoveSpeed <= p.currentMoveSpeed + cfg.moveSpeed
    ensures r.currentMoveSpeed == p.currentMoveSpeed + cfg.moveSpeed || r.currentMoveSpeed == cfg.maxMoveSpeed
    ensures r.currentSpeedStage == p.currentSpeedStage + 1
    ensures r.lastSpeedIncreaseDistance == cfg.speedIncreaseDistances[stageIndex]
  {
    var s := p.currentMoveSpeed + cfg.moveSpeed;
    p.(currentMoveSpeed := if s < cfg.maxMoveSpeed then s else cfg.maxMoveSpeed,
       lastSpeedIncreaseDistance := cfg.speedIncreaseDistances[stageIndex],
       currentSpeedStage := p.currentSpeedStage + 1)
  }

  function Min(a: real, b: real): real { if a < b then a else b }

  /** Whether `UpdateSpeed` enters its switch at this distance. */
  predicate StageReached(cfg: Config, p: Player, distance: real) {
    p.currentSpeedStage < |cfg.speedIncreaseDistances|
    && distance >= cfg.speedIncreaseDistances[p.currentSpeedStage]
  }

  /**
   * `UpdateSpeed`: stages 0 to 3 each add one speed step, stage 4 jumps
   * to the maximum, and any later stage is left as it is.
   */
  function UpdateSpeed(cfg: Config, p: Player, distance: real): (r: Player)
    ensures r.currentSpeedStage == p.currentSpeedStage || r.currentSpeedStage == p.currentSpeedStage + 1
    ensures r.currentSpeedStage == p.currentSpeedStage + 1 <==> StageReached(cfg, p, distance) && p.currentSpeedStage <= 4
    ensures r.currentSpeedStage == p.currentSpeedStage ==> r == p
    ensures r.currentSpeedStage > p.currentSpeedStage && p.currentSpeedStage <= 3 ==>
              r.currentMoveSpeed == Min(p.currentMoveSpeed + cfg.moveSpeed, cfg.maxMoveSpeed)
              && r.lastSpeedIncreaseDistance == cfg.speedIncreaseDistances[p.currentSpeedStage]
    ensures r.currentSpeedStage > p.currentSpeedStage && p.currentSpeedStage == 4 ==>
              r.currentMoveSpeed == cfg.maxMoveSpeed && r.lastSpeedIncreaseDistance == p.lastSpeedIncreaseDistance
    ensures 0.0 <= cfg.moveSpeed && p.currentMoveSpeed <= cfg.maxMoveSpeed
      ==> p.currentMoveSpeed <= r.currentMoveSpeed <= cfg.maxMoveSpeed
    ensures p.currentSpeedStage <= |cfg.speedIncreaseDistances| ==> r.currentSpeedStage <= |cfg.speedIncreaseDistances|
    ensures r.left == p.left && r.right == p.right && r.isMovingLeft == p.isMovingLeft && r.isMovingRight == p.isMovingRight
  {
    if StageReached(cfg, p, distance) then
      var stage := p.currentSpeedStage;
      if stage <= 3 then IncreaseSpeed(cfg, p, stage)
      else if stage == 4 then p.(currentMoveSpeed := cfg.maxMoveSpeed, currentSpeedStage := stage + 1)
      else p
    else p
  }

  /** `UpdateSpeed` over the run distances seen on successive frames. */
  function UpdateSpeeds(cfg: Config, p: Player, distances: seq<real>): Player
    decreases |distances|
  {
    if |distances| == 0 then p
    else UpdateSpeeds(cfg, UpdateSpeed(cfg, p, distances[0]), distances[1..])
  }

  /**
   * From the start of a run, the speed never decreases, never exceeds the
   * maximum, and the stage never passes five or the number of distances.
   */
  lemma {:induction false} SpeedStaysInBounds(cfg: Config, p: Player, distances: seq<real>)
    requires 0.0 <= cfg.moveSpeed
    requires p.currentMoveSpeed <= cfg.maxMoveSpeed
    requires p.currentSpeedStage <= |cfg.speedIncreaseDistances| && p.currentSpeedStage <= 5
    ensures p.currentMoveSpeed <= UpdateSpeeds(cfg, p, distances).currentMoveSpeed <= cfg.maxMoveSpeed
    ensures UpdateSpeeds(cfg, p, distances).currentSpeedStage <= |cfg.speedIncreaseDistances|
    ensures UpdateSpeeds(cfg, p, distances).currentSpeedStage <= 5
    ensures UpdateSpeeds(cfg, p, distances).currentSpeedStage <= p.currentSpeedStage + |distances|
    decreases |distances|
  {
    if |distances| > 0 {
      SpeedStaysInBounds(cfg, UpdateSpeed(cfg, p, distances[0]), distances[1..]);
    }
  }

  /** Once the fifth stage is passed, the speed is the maximum and stays there. */
  lemma {:induction false} FinalStageHoldsMaxSpeed(cfg: Config, p: Player, distances: seq<real>)
    requires p.currentSpeedStage == 5 && p.currentMoveSpeed == cfg.maxMoveSpeed
    ensures UpdateSpeeds(cfg, p, distances) == p
    decreases |distances|
  {
    if |distances| > 0 {
      FinalStageHoldsMaxSpeed(cfg, UpdateSpeed(cfg, p, distances[0]), distances[1..]);
    }
  }

  // ---------------------------------------------------------------------
  // Dodge score
  // ---------------------------------------------------------------------

  /** `Mathf.RoundToInt`: to the nearest integer, halves to the even neighbour. */
  function RoundToInt(x: real): (n: int)
    ensures n as real - 0.5 <= x <= n as real + 0.5
    ensures x == n as real + 0.5 || x == n as real - 0.5 ==> n % 2 == 0
  {
    var f := x.Floor;
    var frac := x - f as real;
    if frac < 0.5 then f
    else if frac > 0.5 then f + 1
    else if f % 2 == 0 then f
    else f + 1
  }

  /** The rounding is the only integer within a half, ties broken to even. */
  lemma RoundToIntUnique(x: real, n: int)
    requires n as real - 0.5 <= x <= n as real + 0.5
    requires x == n as real + 0.5 || x == n as real - 0.5 ==> n % 2 == 0
    ensures RoundToInt(x) == n
  {
  }

  /** Rounding keeps order. */
  lemma RoundToIntMonotone(x: real, y: real)
    requires x <= y
    ensures RoundToInt(x) <= RoundToInt(y)
  {
  }

  /** The unrounded bonus: closer to the wall and faster means more. */
  function DodgeRaw(cfg: Config, speed: real, distance: real): real
    requires cfg.dodgeDistance != 0.0
  {
    (cfg.dodgeBaseScore as real) * ((cfg.dodgeDistance - distance) / cfg.dodgeDistance) * speed
  }

  /** `CalculateDodgeScore`: the rounded bonus, but never less than one point. */
  function CalculateDodgeScore(cfg: Config, speed: real, distance: real): (score: int)
    requires cfg.dodgeDistance != 0.0
    ensures score >= 1
    ensures score >= RoundToInt(DodgeRaw(cfg, speed, distance))
    ensures score > 1 ==> score as real - 0.5 <= DodgeRaw(cfg, speed, distance) <= score as real + 0.5
    ensures score > 1 ==> score == RoundToInt(DodgeRaw(cfg, speed, distance))
  {
    var finalScore := RoundToInt(DodgeRaw(cfg, speed, distance));
    if finalScore < 1 then 1 else finalScore
  }

  /** With non-negative base and speed, a dodge that passes closer to the wall scores at least as much. */
  lemma DodgeScoreCloserIsHigher(cfg: Config, speed: real, near: real, far: real)
    requires 0.0 < cfg.dodgeDistance && 0 <= cfg.dodgeBaseScore && 0.0 <= speed
    requires near <= far
    ensures CalculateDodgeScore(cfg, speed, near) >= CalculateDodgeScore(cfg, speed, far)
  {
    var b := cfg.dodgeBaseScore as real;
    var mNear := (cfg.dodgeDistance - near) / cfg.dodgeDistance;
    var mFar := (cfg.dodgeDistance - far) / cfg.dodgeDistance;
    assert mNear - mFar == (far - near) / cfg.dodgeDistance;
    assert b * mNear - b * mFar == b * (mNear - mFar);
    assert b * mNear * speed - b * mFar * speed == (b * mNear - b * mFar) * speed;
    RoundToIntMonotone(DodgeRaw(cfg, speed, far), DodgeRaw(cfg, speed, near));
  }

  // ---------------------------------------------------------------------
  // Wall collision
  // ---------------------------------------------------------------------

  /**
   * `OnCollisionEnter` and `HandleWallCollision`: hitting a wall-layer
   * object stops both movements and switches the game to its result
   * state.  The wall test is the bit test `LayerMask.Contains`; the
   * source's signed comparison is `OnCollisionEnterAsWritten`.
   */
  function OnCollisionEnter(cfg: Config, p: Player, g: GM.Manager, otherLayer: Layer): (r: (Player, GM.Manager))
    ensures Contains(cfg.wallLayer, otherLayer) ==>
              !r.0.isMovingLeft && !r.0.isMovingRight && r.1.currentState == GM.Result
              && r.1.score == g.score && r.1.moveDistance == g.moveDistance
    ensures r.0.(isMovingLeft := p.isMovingLeft, isMovingRight := p.isMovingRight) == p
    ensures !Contains(cfg.wallLayer, otherLayer) ==> r == (p, g)
  {
    if Contains(cfg.wallLayer, otherLayer) then
      (p.(isMovingLeft := false, isMovingRight := false), GM.ChangeResultState(g))
    else (p, g)
  }

  /** `OnCollisionEnter` with the source's `> 0` test on the `int` mask bits. */
  function OnCollisionEnterAsWritten(cfg: Config, p: Player, g: GM.Manager, otherLayer: Layer): (r: (Player, GM.Manager))
    ensures ContainsAsWritten(cfg.wallLayer, otherLayer) ==>
              !r.0.isMovingLeft && !r.0.isMovingRight && r.1.currentState == GM.Result
              && r.1.score == g.score && r.1.moveDistance == g.moveDistance
    ensures r.0.(isMovingLeft := p.isMovingLeft, isMovingRight := p.isMovingRight) == p
    ensures !ContainsAsWritten(cfg.wallLayer, otherLayer) ==> r == (p, g)
  {
    if ContainsAsWritten(cfg.wallLayer, otherLayer) then
      (p.(isMovingLeft := false, isMovingRight := false), GM.ChangeResultState(g))
    else (p, g)
  }

  /**
   * The two collision tests agree on layers 0 to 30; with the default
   * mask of every layer, the source's test lets an object on layer 31
   * pass through a wall.
   */
  lemma CollisionAsWrittenMissesLayer31(cfg: Config, p: Player, g: GM.Manager, otherLayer: Layer)
    ensures otherLayer < 31 ==> OnCollisionEnterAsWritten(cfg, p, g, otherLayer) == OnCollisionEnter(cfg, p, g, otherLayer)
    ensures cfg.wallLayer == 0xFFFF_FFFF ==>
              OnCollisionEnter(cfg, p, g, 31).1.currentState == GM.Result
              && OnCollisionEnterAsWritten(cfg, p, g, 31) == (p, g)
  {
    if otherLayer < 31 {
      AsWrittenAgreesBelowSignBit(cfg.wallLayer, otherLayer);
    }
    if cfg.wallLayer == 0xFFFF_FFFF {
      ContainsIsMembership(0, 0, 31);
      AsWrittenMissesLayer31();
    }
  }

  /** After a wall hit nothing is held, so the next frame's `HandleMovement` moves nothing. */
  lemma HandleMovementAfterWallHit(cfg: Config, p: Player, g: GM.Manager, otherLayer: Layer)
    requires Contains(cfg.wallLayer, otherLayer)
    ensures HandleMovement(cfg, OnCollisionEnter(cfg, p, g, otherLayer).0)
      == Step(OnCollisionEnter(cfg, p, g, otherLayer).0, false)
    ensures OnCollisionEnter(cfg, OnCollisionEnter(cfg, p, g, otherLayer).0, OnCollisionEnter(cfg, p, g, otherLayer).1, otherLayer)
      == OnCollisionEnter(cfg, p, g, otherLayer)
  {
  }

  /** What one `Update` leaves behind, and whether `HandleMovement` threw and cut the frame short. */
  datatype Outcome = Outcome(player: Player, manager: GM.Manager, threw: bool)

  /**
   * The frame part of `Update`: lanes, then the speed stage against the
   * distance so far, then the frame's distance added to both the run
   * distance and the score.  A throw in `HandleMovement` skips the rest.
   */
  function Update(cfg: Config, p: Player, g: GM.Manager, frameDistance: real): (r: Outcome)
    ensures r.threw <==> HandleMovement(cfg, p).threw
    ensures r.threw ==> r.manager == g && r.player == HandleMovement(cfg, p).player
    ensures !r.threw ==> r.player == UpdateSpeed(cfg, HandleMovement(cfg, p).player, g.moveDistance)
    ensures !r.threw ==>
              r.manager == g.(moveDistance := g.moveDistance + frameDistance, score := g.score + frameDistance)
    ensures r.player.left == HandleMovement(cfg, p).player.left && r.player.right == HandleMovement(cfg, p).player.right
    ensures r.player.isMovingLeft == p.isMovingLeft && r.player.isMovingRight == p.isMovingRight
    ensures r.player.currentSpeedStage == p.currentSpeedStage || r.player.currentSpeedStage == p.currentSpeedStage + 1
    ensures r.player.currentSpeedStage == p.currentSpeedStage + 1
      <==> !r.threw && StageReached(cfg, p, g.moveDistance) && p.currentSpeedStage <= 4
    ensures 0.0 <= cfg.moveSpeed && p.currentMoveSpeed <= cfg.maxMoveSpeed
      ==> p.currentMoveSpeed <= r.player.currentMoveSpeed <= cfg.maxMoveSpeed
  {
    var moved := HandleMovement(cfg, p);
    if moved.threw then Outcome(moved.player, g, true)
    else
      var q := UpdateSpeed(cfg, moved.player, g.moveDistance);
      Outcome(q, GM.AddScore(GM.AddDistance(g, frameDistance), frameDistance), false)
  }

  /** `Update` over successive frames, each with the distance it travelled. */
  function UpdateRun(cfg: Config, p: Player, g: GM.Manager, distances: seq<real>): Outcome
    decreases |distances|
  {
    if |distances| == 0 then Outcome(p, g, false)
    else
      var prev := UpdateRun(cfg, p, g, distances[..|distances| - 1]);
      Update(cfg, prev.player, prev.manager, distances[|distances| - 1])
  }

  /**
   * From tofu standing on lanes, no frame throws: the run distance and
   * the score each grow by the sum of the frames' distances, the game
   * state stays, and the stage advances at most once a frame.
   */
  lemma {:induction false} UpdateRunAddsDistances(cfg: Config, p: Player, g: GM.Manager, distances: seq<real>)
    requires OnLanes(cfg, p)
    ensures OnLanes(cfg, UpdateRun(cfg, p, g, distances).player)
    ensures !UpdateRun(cfg, p, g, distances).threw
    ensures UpdateRun(cfg, p, g, distances).manager.moveDistance == g.moveDistance + GM.Sum(distances)
    ensures UpdateRun(cfg, p, g, distances).manager.score == g.score + GM.Sum(distances)
    ensures UpdateRun(cfg, p, g, distances).manager.currentState == g.currentState
    ensures UpdateRun(cfg, p, g, distances).player.currentSpeedStage <= p.currentSpeedStage + |distances|
    decreases |distances|
  {
    if |distances| > 0 {
      UpdateRunAddsDistances(cfg, p, g, distances[..|distances| - 1]);
    }
  }
}

=== FILE: delay_utility.dfy ===
/**
 * `DelayUtility`: coroutine loops that wait, repeat, or repeat while a
 * predicate holds.  A coroutine runs in segments, one per frame, from
 * one `yield` to the next; each loop is modelled over an explicit trace
 * of the frames it runs in.  A frame carries what `isPausedFunc()` and
 * `Time.deltaTime` return during it.  A null pause function counts as
 * never paused.  The loops count passes; a null callback is invoked on
 * none of them.
 */
module DelayUtility {

  datatype Frame = Frame(paused: bool, deltaTime: real)

  /** Whether the loop sees the frame as paused: never, without a pause function. */
  predicate IsPaused(hasPauseFunc: bool, f: Frame) {
    hasPauseFunc && f.paused
  }

  /** The time a frame adds to a pause-aware timer. */
  function Advance(hasPauseFunc: bool, f: Frame): real {
    if IsPaused(hasPauseFunc, f) then 0.0 else f.deltaTime
  }

  /** The unpaused time accumulated over a run of frames, summed in order. */
  function UnpausedTime(hasPauseFunc: bool, frames: seq<Frame>): real
    decreases |frames|
  {
    if |frames| == 0 then 0.0
    else UnpausedTime(hasPauseFunc, frames[..|frames| - 1]) + Advance(hasPauseFunc, frames[|frames| - 1])
  }

  // ---------------------------------------------------------------------
  // RunAfterDelayCoroutineWithPause
  // ---------------------------------------------------------------------

  /**
   * Where the delay stands once the trace is used up: the callback has
   * run after `waited` frames, or the timer is still below the delay.
   */
  datatype DelayOutcome = Fired(waited: nat, elapsed: real) | Waiting(elapsed: real)

  /**
   * The loop of `RunAfterDelayCoroutineWithPause` from a timer value:
   * each frame either is paused and leaves the timer alone, or adds its
   * delta; the callback runs at the first loop check that finds the
   * timer at or past the delay.
   */
  function DelayFrom(delay: real, hasPauseFunc: bool, frames: seq<Frame>, elapsed: real): (o: DelayOutcome)
    ensures o.Fired? ==> o.waited <= |frames|
    ensures o.Fired? ==> o.elapsed == elapsed + UnpausedTime(hasPauseFunc, frames[..o.waited])
    ensures o.Fired? ==> delay <= o.elapsed
    ensures o.Fired? ==> forall k: nat | k < o.waited :: elapsed + UnpausedTime(hasPauseFunc, frames[..k]) < delay
    ensures o.Waiting? ==> o.elapsed == elapsed + UnpausedTime(hasPauseFunc, frames)
    ensures o.Waiting? ==> forall k: nat | k <= |frames| :: elapsed + UnpausedTime(hasPauseFunc, frames[..k]) < delay
    decreases |frames|
  {
    if delay <= elapsed then Fired(0, elapsed)
    else if |frames| == 0 then Waiting(elapsed)
    else
      var next := elapsed + Advance(hasPauseFunc, frames[0]);
      UnpausedTimeFront(hasPauseFunc, frames);
      match DelayFrom(delay, hasPauseFunc, frames[1..], next)
      case Fired(n, e) =>
        UnpausedTimePrefixFront(hasPauseFunc, frames, n + 1);
        PrefixesFront(delay, hasPauseFunc, frames, elapsed, n + 1);
        Fired(n + 1, e)
      case Waiting(e) =>
        PrefixesFront(delay, hasPauseFunc, frames, elapsed, |frames| + 1);
        Waiting(e)
  }

  /** `RunAfterDelayCoroutineWithPause`: the timer starts at zero. */
  function RunAfterDelayWithPause(delay: real, hasPauseFunc: bool, frames: seq<Frame>): (o: DelayOutcome)
    ensures delay <= 0.0 ==> o == Fired(0, 0.0)
    ensures o.Fired? ==> o.waited <= |frames|
    ensures o.Fired? ==> delay <= UnpausedTime(hasPauseFunc, frames[..o.waited])
    ensures o.Fired? ==> o.elapsed == UnpausedTime(hasPauseFunc, frames[..o.waited])
    ensures o.Fired? ==> forall k: nat | k < o.waited :: UnpausedTime(hasPauseFunc, frames[..k]) < delay
    ensures o.Waiting? ==> o.elapsed == UnpausedTime(hasPauseFunc, frames)
    ensures o.Waiting? ==> UnpausedTime(hasPauseFunc, frames) < delay
  {
    assert frames[..|frames|] == frames;
    DelayFrom(delay, hasPauseFunc, frames, 0.0)
  }

  /** How many times the callback has run: once on firing, never when it is null. */
  function DelayCallbacks(o: DelayOutcome, hasCallback: bool): (n: nat)
    ensures n <= 1
    ensures n == 1 <==> o.Fired? && hasCallback
  {
    if o.Fired? && hasCallback then 1 else 0
  }

  /** The last frame's contribution peels off the end of the sum; this one peels the first frame off the front. */
  lemma {:induction false} UnpausedTimeFront(hasPauseFunc: bool, frames: seq<Frame>)
    requires |frames| > 0
    ensures UnpausedTime(hasPauseFunc, frames) == Advance(hasPauseFunc, frames[0]) + UnpausedTime(hasPauseFunc, frames[1..])
    decreases |frames|
  {
    if |frames| > 1 {
      var init := frames[..|frames| - 1];
      UnpausedTimeFront(hasPauseFunc, init);
      assert init[1..] == frames[1..][..|frames[1..]| - 1];
    }
  }

  lemma UnpausedTimePrefixFront(hasPauseFunc: bool, frames: seq<Frame>, k: nat)
    requires 0 < k <= |frames|
    ensures UnpausedTime(hasPauseFunc, frames[..k])
      == Advance(hasPauseFunc, frames[0]) + UnpausedTime(hasPauseFunc, frames[1..][..k - 1])
  {
    UnpausedTimeFront(hasPauseFunc, frames[..k]);
    assert frames[..k][1..] == frames[1..][..k - 1];
  }

  /** The timer values before each frame of the tail are those of the whole trace, shifted by one frame. */
  lemma PrefixesFront(delay: real, hasPauseFunc: bool, frames: seq<Frame>, elapsed: real, m: nat)
    requires 0 < m <= |frames| + 1 && elapsed < delay
    requires forall k: nat | k < m - 1 ::
      elapsed + Advance(hasPauseFunc, frames[0]) + UnpausedTime(hasPauseFunc, frames[1..][..k]) < delay
    ensures forall k: nat | k < m :: elapsed + UnpausedTime(hasPauseFunc, frames[..k]) < delay
  {
    forall k: nat | k < m
      ensures elapsed + UnpausedTime(hasPauseFunc, frames[..k]) < delay
    {
      if k > 0 {
        UnpausedTimePrefixFront(hasPauseFunc, frames, k);
      }
    }
  }

  /** Paused frames add nothing: a trace of them leaves the delay waiting at zero. */
  lemma {:induction false} PausedFramesAddNothing(hasPauseFunc: bool, frames: seq<Frame>)
    requires hasPauseFunc && forall i | 0 <= i < |frames| :: frames[i].paused
    ensures UnpausedTime(hasPauseFunc, frames) == 0.0
    decreases |frames|
  {
    if |frames| > 0 {
      PausedFramesAddNothing(hasPauseFunc, frames[..|frames| - 1]);
    }
  }

  /** A paused frame inserted anywhere in the trace leaves the unpaused time unchanged. */
  lemma {:induction false} PausedFrameIsTransparent(hasPauseFunc: bool, before: seq<Frame>, f: Frame, after: seq<Frame>)
    requires IsPaused(hasPauseFunc, f)
    ensures UnpausedTime(hasPauseFunc, before + [f] + after) == UnpausedTime(hasPauseFunc, before + after)
    decreases |after|
  {
    if |after| == 0 {
      assert before + [f] + after == before + [f];
      assert (before + [f])[..|before|] == before;
      assert before + after == before;
    } else {
      var a := after[..|after| - 1];
      PausedFrameIsTransparent(hasPauseFunc, before, f, a);
      assert (before + [f] + after)[..|before + [f] + after| - 1] == before + [f] + a;
      assert (before + after)[..|before + after| - 1] == before + a;
    }
  }

  // ---------------------------------------------------------------------
  // RunRepeatedly
  // ---------------------------------------------------------------------

  /** The loop timer after `n` intervals, added one at a time. */
  function ElapsedAfter(interval: real, n: nat): real
    decreases n
  {
    if n == 0 then 0.0 else ElapsedAfter(interval, n - 1) + interval
  }

  /** `n` is the number of loop passes: the timer reaches `duration` after `n` intervals and not before. */
  predicate IsRepeatCount(duration: real, interval: real, n: nat) {
    duration <= ElapsedAfter(interval, n)
    && forall k: nat | k < n :: ElapsedAfter(interval, k) < duration
  }

  lemma {:induction false} ElapsedAfterIsProduct(interval: real, n: nat)
    ensures ElapsedAfter(interval, n) == n as real * interval
    decreases n
  {
    if n > 0 {
      ElapsedAfterIsProduct(interval, n - 1);
      assert (n - 1) as real * interval + interval == n as real * interval;
    }
  }

  lemma {:induction false} ElapsedAfterMonotone(interval: real, m: nat, n: nat)
    requires 0.0 < interval && m <= n
    ensures ElapsedAfter(interval, m) <= ElapsedAfter(interval, n)
    decreases n
  {
    if m < n {
      ElapsedAfterMonotone(interval, m, n - 1);
    }
  }

  /** With a positive interval the timer passes any duration eventually. */
  lemma EventuallyReaches(duration: real, interval: real) returns (n: nat)
    requires 0.0 < interval
    ensures duration <= ElapsedAfter(interval, n)
  {
    n := if duration <= 0.0 then 0 else (duration / interval).Floor + 1;
    ElapsedAfterIsProduct(interval, n);
    if 0.0 < duration {
      assert duration / interval < n as real;
      assert duration == (duration / interval) * interval;
      assert (n as real - duration / interval) * interval > 0.0;
    }
  }

  /** There is at most one loop-pass count. */
  lemma RepeatCountUnique(duration: real, interval: real, m: nat, n: nat)
    requires IsRepeatCount(duration, interval, m) && IsRepeatCount(duration, interval, n)
    ensures m == n
  {
  }

  /**
   * `RunRepeatedly`: the callback runs before each wait of `interval`,
   * while the timer is below `duration`; the result is the number of
   * passes and of callback invocations.  A non-positive duration ends
   * at once whatever the interval; otherwise the interval must be
   * positive, or the loop never ends (`RunRepeatedlyNeverEnds`).
   */
  method RunRepeatedly(duration: real, interval: real, hasCallback: bool) returns (passes: nat, calls: nat)
    requires 0.0 < interval || duration <= 0.0
    ensures IsRepeatCount(duration, interval, passes)
    ensures duration <= 0.0 <==> passes == 0
    ensures calls == if hasCallback then passes else 0
  {
    ghost var bound: nat := 0;
    if 0.0 < interval {
      bound := EventuallyReaches(duration, interval);
    }
    var elapsed := 0.0;
    passes, calls := 0, 0;
    while elapsed < duration
      invariant elapsed == ElapsedAfter(interval, passes)
      invariant passes <= bound
      invariant forall k: nat | k < passes :: ElapsedAfter(interval, k) < duration
      invariant calls == if hasCallback then passes else 0
      decreases bound - passes
    {
      if passes == bound {
        assert false;
      }
      if hasCallback {
        calls := calls + 1;
      }
      elapsed := elapsed + interval;
      passes := passes + 1;
    }
  }

  /** With a non-positive interval and a positive duration the loop never ends. */
  lemma {:induction false} RunRepeatedlyNeverEnds(duration: real, interval: real, n: nat)
    requires interval <= 0.0 < duration
    ensures ElapsedAfter(interval, n) < duration
    decreases n
  {
    if n > 0 {
      RunRepeatedlyNeverEnds(duration, interval, n - 1);
    }
  }

  // ---------------------------------------------------------------------
  // RunRepeatedlyWithPause
  // ---------------------------------------------------------------------

  /**
   * Where the pause-aware repeat stands between frames: at the outer loop
   * check, inside an interval wait, finished, or spinning forever inside
   * one frame (a non-positive interval never waited).
   */
  datatype Phase = AtLoopHead | InInterval | Done | Hung

  /**
   * The repeat's phase, its two timers, and how many passes of the outer
   * loop have started; each pass invokes a non-null callback once.
   */
  datatype Repeat = Repeat(phase: Phase, elapsed: real, intervalElapsed: real, passes: nat)

  /** The callback invocations behind the passes so far: one per pass, none for a null callback. */
  function RepeatCallbacks(s: Repeat, hasCallback: bool): (n: nat)
    ensures n <= s.passes
    ensures n == s.passes <==> hasCallback || s.passes == 0
  {
    if hasCallback then s.passes else 0
  }

  /** The coroutine before its first segment. */
  const RepeatStart: Repeat := Repeat(AtLoopHead, 0.0, 0.0, 0)

  /**
   * The outer loop from its check, within one frame: stop, yield on a
   * paused frame, or start a pass (invoking the callback) and start
   * waiting out the interval.  With a non-positive interval the source's
   * frame never yields again; the model records the one pass and stops
   * in `Hung`.
   */
  function FromLoopHead(duration: real, interval: real, hasPauseFunc: bool, f: Frame, elapsed: real, passes: nat): (r: Repeat)
    ensures r.passes <= passes + 1
    ensures r.passes == passes + 1 <==> elapsed < duration && !IsPaused(hasPauseFunc, f)
    ensures r.phase == Done <==> duration <= elapsed
  {
    if duration <= elapsed then Repeat(Done, elapsed, 0.0, passes)
    else if IsPaused(hasPauseFunc, f) then Repeat(AtLoopHead, elapsed, 0.0, passes)
    else if interval <= 0.0 then Repeat(Hung, elapsed, 0.0, passes + 1)
    else Repeat(InInterval, elapsed, f.deltaTime, passes + 1)
  }

  /** One segment of `RunRepeatedlyWithPause`, run in frame `f`. */
  function RepeatStep(duration: real, interval: real, hasPauseFunc: bool, s: Repeat, f: Frame): (r: Repeat)
    ensures IsPaused(hasPauseFunc, f) ==> r.passes == s.passes
    ensures r.passes <= s.passes + 1
    ensures s.phase == Done ==> r == s
  {
    match s.phase
    case AtLoopHead => FromLoopHead(duration, interval, hasPauseFunc, f, s.elapsed, s.passes)
    case InInterval =>
      if s.intervalElapsed < interval then
        if IsPaused(hasPauseFunc, f) then s
        else s.(intervalElapsed := s.intervalElapsed + f.deltaTime)
      else FromLoopHead(duration, interval, hasPauseFunc, f, s.elapsed + interval, s.passes)
    case Done => s
    case Hung => s
  }

  function RepeatRun(duration: real, interval: real, hasPauseFunc: bool, s: Repeat, frames: seq<Frame>): Repeat
    decreases |frames|
  {
    if |frames| == 0 then s
    else RepeatRun(duration, interval, hasPauseFunc, RepeatStep(duration, interval, hasPauseFunc, s, frames[0]), frames[1..])
  }

  /**
   * What holds between segments: the timer counts one interval per
   * completed pass, every earlier pass started below `duration`, and
   * finishing means the pass count is the one `RunRepeatedly` makes.
   */
  predicate RepeatInvariant(duration: real, interval: real, s: Repeat) {
    (forall k: nat | k < s.passes :: ElapsedAfter(interval, k) < duration)
    && match s.phase
       case AtLoopHead => s.elapsed == ElapsedAfter(interval, s.passes) && (interval <= 0.0 ==> s.passes == 0)
       case InInterval => 0 < s.passes && 0.0 < interval && s.elapsed == ElapsedAfter(interval, s.passes - 1)
       case Done => IsRepeatCount(duration, interval, s.passes)
       case Hung => interval <= 0.0 && 0.0 < duration && s.passes == 1
  }

  lemma RepeatStartInvariant(duration: real, interval: real)
    ensures RepeatInvariant(duration, interval, RepeatStart)
  {
  }

  lemma RepeatStepKeepsInvariant(duration: real, interval: real, hasPauseFunc: bool, s: Repeat, f: Frame)
    requires RepeatInvariant(duration, interval, s)
    ensures RepeatInvariant(duration, interval, RepeatStep(duration, interval, hasPauseFunc, s, f))
  {
    var r := RepeatStep(duration, interval, hasPauseFunc, s, f);
    if s.phase == InInterval && interval <= s.intervalElapsed {
      assert s.elapsed + interval == ElapsedAfter(interval, s.passes);
    }
    if s.phase == Hung {
      assert r == s;
    }
  }

  lemma {:induction false} RepeatRunKeepsInvariant(duration: real, interval: real, hasPauseFunc: bool, s: Repeat, frames: seq<Frame>)
    requires RepeatInvariant(duration, interval, s)
    ensures RepeatInvariant(duration, interval, RepeatRun(duration, interval, hasPauseFunc, s, frames))
    ensures RepeatRun(duration, interval, hasPauseFunc, s, frames).passes <= s.passes + |frames|
    decreases |frames|
  {
    if |frames| > 0 {
      var next := RepeatStep(duration, interval, hasPauseFunc, s, frames[0]);
      RepeatStepKeepsInvariant(duration, interval, hasPauseFunc, s, frames[0]);
      RepeatRunKeepsInvariant(duration, interval, hasPauseFunc, next, frames[1..]);
    }
  }

  /**
   * Once finished, the pause-aware repeat has made exactly as many passes,
   * and invoked the callback exactly as often, as `RunRepeatedly`; a hang
   * needs a non-positive interval.
   */
  lemma RepeatWithPauseMatchesRepeat(duration: real, interval: real, hasPauseFunc: bool, hasCallback: bool, frames: seq<Frame>, n: nat)
    requires IsRepeatCount(duration, interval, n)
    ensures RepeatRun(duration, interval, hasPauseFunc, RepeatStart, frames).phase == Done
      ==> RepeatRun(duration, interval, hasPauseFunc, RepeatStart, frames).passes == n
    ensures RepeatRun(duration, interval, hasPauseFunc, RepeatStart, frames).phase == Done
      ==> RepeatCallbacks(RepeatRun(duration, interval, hasPauseFunc, RepeatStart, frames), hasCallback)
          == if hasCallback then n else 0
    ensures RepeatRun(duration, interval, hasPauseFunc, RepeatStart, frames).phase == Hung ==> interval <= 0.0 < duration
  {
    RepeatRunKeepsInvariant(duration, interval, hasPauseFunc, RepeatStart, frames);
    var r := RepeatRun(duration, interval, hasPauseFunc, RepeatStart, frames);
    if r.phase == Done {
      RepeatCountUnique(duration, interval, r.passes, n);
    }
  }

  /**
   * Between passes the loop waits out `interval` of unpaused time: as
   * long as the interval timer stays below `interval` before every frame,
   * no pass starts and the timer only gathers the frames' unpaused time.
   */
  lemma {:induction false} IntervalWaitsBeforeNextCall(duration: real, interval: real, hasPauseFunc: bool, s: Repeat, frames: seq<Frame>)
    requires s.phase == InInterval
    requires forall k | 0 <= k < |frames| :: s.intervalElapsed + UnpausedTime(hasPauseFunc, frames[..k]) < interval
    ensures RepeatRun(duration, interval, hasPauseFunc, s, frames).passes == s.passes
    ensures RepeatRun(duration, interval, hasPauseFunc, s, frames)
      == s.(intervalElapsed := s.intervalElapsed + UnpausedTime(hasPauseFunc, frames))
    decreases |frames|
  {
    if |frames| > 0 {
      assert frames[..0] == [];
      var next := RepeatStep(duration, interval, hasPauseFunc, s, frames[0]);
      assert next == s.(intervalElapsed := s.intervalElapsed + Advance(hasPauseFunc, frames[0]));
      forall k | 0 <= k < |frames[1..]|
        ensures next.intervalElapsed + UnpausedTime(hasPauseFunc, frames[1..][..k]) < interval
      {
        UnpausedTimePrefixFront(hasPauseFunc, frames, k + 1);
        assert s.intervalElapsed + UnpausedTime(hasPauseFunc, frames[..k + 1]) < interval;
      }
      IntervalWaitsBeforeNextCall(duration, interval, hasPauseFunc, next, frames[1..]);
      UnpausedTimeFront(hasPauseFunc, frames);
    }
  }

  /** With a pause function, a trace of paused frames starts no pass. */
  lemma {:induction false} PausedFramesNeverCallBack(duration: real, interval: real, s: Repeat, frames: seq<Frame>)
    requires forall i | 0 <= i < |frames| :: frames[i].paused
    ensures RepeatRun(duration, interval, true, s, frames).passes == s.passes
    decreases |frames|
  {
    if |frames| > 0 {
      PausedFramesNeverCallBack(duration, interval, RepeatStep(duration, interval, true, s, frames[0]), frames[1..]);
    }
  }

  // ---------------------------------------------------------------------
  // RunRepeatedlyWhile
  // ---------------------------------------------------------------------

  /** Whether the loop continues at a check: always, without a predicate. */
  predicate Continues(hasPredicate: bool, answer: bool) {
    !hasPredicate || answer
  }

  datatype WhileOutcome = WhileOutcome(passes: nat, stopped: bool)

  /**
   * `RunRepeatedlyWhile` over the predicate's answers at successive loop
   * checks: one pass per check that continues, until the first that does
   * not.
   */
  function RunRepeatedlyWhile(hasPredicate: bool, answers: seq<bool>): (o: WhileOutcome)
    ensures o.passes <= |answers|
    ensures forall i | 0 <= i < o.passes :: Continues(hasPredicate, answers[i])
    ensures o.stopped <==> o.passes < |answers|
    ensures o.stopped ==> !Continues(hasPredicate, answers[o.passes])
    ensures !hasPredicate ==> !o.stopped && o.passes == |answers|
    decreases |answers|
  {
    if |answers| == 0 then WhileOutcome(0, false)
    else if !Continues(hasPredicate, answers[0]) then WhileOutcome(0, true)
    else
      var rest := RunRepeatedlyWhile(hasPredicate, answers[1..]);
      WhileOutcome(rest.passes + 1, rest.stopped)
  }

  /** Answers after the loop stopped are never consulted. */
  lemma {:induction false} RunRepeatedlyWhileStopsAtFirstFalse(hasPredicate: bool, answers: seq<bool>, later: seq<bool>)
    requires RunRepeatedlyWhile(hasPredicate, answers).stopped
    ensures RunRepeatedlyWhile(hasPredicate, answers + later) == RunRepeatedlyWhile(hasPredicate, answers)
    decreases |answers|
  {
    assert (answers + later)[0] == answers[0];
    if Continues(hasPredicate, answers[0]) {
      assert (answers + later)[1..] == answers[1..] + later;
      RunRepeatedlyWhileStopsAtFirstFalse(hasPredicate, answers[1..], later);
    }
  }
}

=== FILE: game_manager.dfy ===
/**
 * `GameManager`: the game state, the run's score and distance
 * accumulators, the pause-aware frame delta, and the player-name length
 * limit.  Services, persistence and scene loading are not modelled.
 */
module GameManager {
  import opened Nullable

  datatype GameState = Title | Menu | Game | Result

  /** The longest player name that is saved or shown. */
  const MAX_NAME_LENGTH: nat := 5

  datatype Manager = Manager(
    currentState: GameState,
    moveDistance: real,
    score: real,
    isPaused: bool,
    deltaTime: real)

  /** A fresh manager: on the title screen, nothing accumulated, not paused. */
  function Initial(): (g: Manager)
    ensures g.currentState == Title && !g.isPaused
    ensures g.moveDistance == 0.0 && g.score == 0.0
  {
    Manager(Title, 0.0, 0.0, false, 0.0)
  }

  /**
   * `SetState`: entering `Game` starts a new run (distance and score back
   * to zero); entering any other state changes only the state.
   */
  function SetState(g: Manager, state: GameState): (r: Manager)
    ensures r.currentState == state
    ensures state == Game ==> r.moveDistance == 0.0 && r.score == 0.0
    ensures state != Game ==> r.moveDistance == g.moveDistance && r.score == g.score
    ensures r.isPaused == g.isPaused && r.deltaTime == g.deltaTime
  {
    match state
    case Game => g.(currentState := state, moveDistance := 0.0, score := 0.0)
    case _ => g.(currentState := state)
  }

  /** Back to the title screen; the last run's figures stay. */
  function ChangeTitleState(g: Manager): (r: Manager)
    ensures r.currentState == Title
    ensures r.score == g.score && r.moveDistance == g.moveDistance && r.isPaused == g.isPaused
  {
    SetState(g, Title)
  }

  /** A new run: both accumulators start again from zero. */
  function ChangeGameState(g: Manager): (r: Manager)
    ensures r.currentState == Game
    ensures r.score == 0.0 && r.moveDistance == 0.0 && r.isPaused == g.isPaused
  {
    SetState(g, Game)
  }

  /** The run is over; its score and distance are kept for the result screen. */
  function ChangeResultState(g: Manager): (r: Manager)
    ensures r.currentState == Result
    ensures r.score == g.score && r.moveDistance == g.moveDistance && r.isPaused == g.isPaused
  {
    SetState(g, Result)
  }

  function AddScore(g: Manager, value: real): (r: Manager)
    ensures r.score - g.score == value
    ensures r.(score := g.score) == g
  {
    g.(score := g.score + value)
  }

  /** `AddDisrance` in the source. */
  function AddDistance(g: Manager, value: real): (r: Manager)
    ensures r.moveDistance - g.moveDistance == value
    ensures r.(moveDistance := g.moveDistance) == g
  {
    g.(moveDistance := g.moveDistance + value)
  }

  /** The frame part of `Update`: `DeltaTime` is zero while paused, the frame's delta otherwise. */
  function Update(g: Manager, frameDelta: real): (r: Manager)
    ensures r.deltaTime == (if g.isPaused then 0.0 else frameDelta)
    ensures r.(deltaTime := g.deltaTime) == g
  {
    g.(deltaTime := if g.isPaused then 0.0 else frameDelta)
  }

  /**
   * `DeltaTime` depends on the current frame only: an earlier frame's
   * delta is forgotten, and while paused every frame reads zero whatever
   * its real delta.
   */
  lemma DeltaTimeIsPerFrame(g: Manager, earlier: real, later: real)
    ensures Update(Update(g, earlier), later) == Update(g, later)
    ensures g.isPaused ==> Update(g, earlier) == Update(g, later)
  {
  }

  /** The truncation `SavePlayerNameAsync` applies before saving. */
  function TruncateName(name: string): (r: string)
    ensures |r| <= MAX_NAME_LENGTH
    ensures |r| == if |name| < MAX_NAME_LENGTH then |name| else MAX_NAME_LENGTH
    ensures r <= name
  {
    if |name| > MAX_NAME_LENGTH then name[..MAX_NAME_LENGTH] else name
  }

  /**
   * The name `SavePlayerNameAsync` goes on to save.  A null name throws at
   * `name.Length`, before anything is saved, which is `None` here.
   */
  function SavedPlayerName(name: Option<string>): (r: Option<string>)
    ensures r.None? <==> name.None?
    ensures r.Some? ==> |r.value| <= MAX_NAME_LENGTH && r.value <= name.value
    ensures r.Some? && |name.value| <= MAX_NAME_LENGTH ==> r.value == name.value
  {
    match name
    case None => None
    case Some(s) => Some(TruncateName(s))
  }

  // ---------------------------------------------------------------------
  // Accumulators over a run
  // ---------------------------------------------------------------------

  function Sum(vs: seq<real>): real {
    if |vs| == 0 then 0.0 else Sum(vs[..|vs| - 1]) + vs[|vs| - 1]
  }

  /** Adds each value to the score, in order. */
  function AddScores(g: Manager, vs: seq<real>): Manager
    decreases |vs|
  {
    if |vs| == 0 then g else AddScore(AddScores(g, vs[..|vs| - 1]), vs[|vs| - 1])
  }

  /** After a new run starts, the score is the sum of what was added since, and nothing else moves. */
  lemma {:induction false} ScoreIsSumSinceRunStart(g: Manager, vs: seq<real>)
    ensures AddScores(ChangeGameState(g), vs).score == Sum(vs)
    ensures AddScores(ChangeGameState(g), vs).moveDistance == 0.0
    ensures AddScores(ChangeGameState(g), vs).currentState == Game
  {
    if |vs| > 0 {
      ScoreIsSumSinceRunStart(g, vs[..|vs| - 1]);
    }
  }

  /** Ending a run keeps the run's score and distance for the result screen. */
  lemma ResultKeepsRun(g: Manager)
    ensures ChangeResultState(g).score == g.score
    ensures ChangeResultState(g).moveDistance == g.moveDistance
    ensures ChangeGameState(ChangeResultState(g)) == ChangeGameState(g)
  {
  }

  /** Truncation is idempotent and leaves short names alone. */
  lemma TruncateNameIdempotent(name: string)
    ensures TruncateName(TruncateName(name)) == TruncateName(name)
    ensures |name| <= MAX_NAME_LENGTH ==> TruncateName(name) == name
  {
  }
}

=== FILE: layer_mask.dfy ===
/**
 * Unity's `LayerMask` test `(mask.value & (1 << layer)) > 0`, used by the
 * player's and the wall's collision handlers.  `mask.value` is a signed
 * 32-bit `int`; it is modelled by its bit pattern.
 */
module LayerMask {

  /** A GameObject's layer, 0 to 31: Unity has 32 layers. */
  type Layer = bv5

  function Bit(layer: Layer): bv32 {
    1 << layer
  }

  /** The layer's bit is set in the mask (the evidently intended test). */
  predicate Contains(mask: bv32, layer: Layer)
    ensures Contains(mask, layer) <==> (mask >> layer) & 1 == 1
  {
    mask & Bit(layer) != 0
  }

  /**
   * The test as written: the masked value is compared `> 0` as a signed
   * 32-bit integer, so a result with the sign bit set counts as "not in
   * the mask".
   */
  predicate ContainsAsWritten(mask: bv32, layer: Layer)
    ensures ContainsAsWritten(mask, layer) <==> Contains(mask, layer) && layer < 31
  {
    var v := mask & Bit(layer);
    v != 0 && v < 0x8000_0000
  }

  /**
   * Masks are sets of layers: the empty mask holds none, the all-ones
   * mask (`-1`) holds every one, and `|` is union.
   */
  lemma ContainsIsMembership(a: bv32, b: bv32, layer: Layer)
    ensures !Contains(0, layer)
    ensures Contains(0xFFFF_FFFF, layer)
    ensures Contains(a | b, layer) <==> Contains(a, layer) || Contains(b, layer)
  {
    var m := Bit(layer);
    BitNonZero(layer);
    MaskAlgebra(a, b, m);
  }

  lemma BitNonZero(layer: Layer)
    ensures Bit(layer) != 0
  {
  }

  lemma MaskAlgebra(a: bv32, b: bv32, m: bv32)
    requires m != 0
    ensures 0 & m == 0 && 0xFFFF_FFFF & m != 0
    ensures (a | b) & m != 0 <==> a & m != 0 || b & m != 0
  {
  }

  /** For layers 0 to 30 the written test is the intended one. */
  lemma AsWrittenAgreesBelowSignBit(mask: bv32, layer: Layer)
    requires layer < 31
    ensures ContainsAsWritten(mask, layer) <==> Contains(mask, layer)
  {
  }

  /**
   * Layer 31: a mask that selects every layer (the player's default
   * `wallLayer` of -1) still fails the written test.
   */
  lemma AsWrittenMissesLayer31()
    ensures Contains(0xFFFF_FFFF, 31)
    ensures !ContainsAsWritten(0xFFFF_FFFF, 31)
  {
  }
}

=== FILE: nullable.dfy ===
/** A C# reference that may be null, as a value: `None` stands for `null`. */
module Nullable {

  datatype Option<+T> = None | Some(value: T) {

    /** The value, or `default` when the reference is null. */
    function GetOr(default: T): T {
      match this
      case Some(v) => v
      case None => default
    }
  }
}

=== FILE: result_manager.dfy ===
/**
 * `ResultManager.CleanPlayerName`: turns an authentication display name
 * (such as `Player#1234`) into the short name shown on the leaderboard.
 */
module ResultManager {
  import opened Nullable
  import GameManager

  const GUEST := "Guest"

  /** `string.IndexOf(char)`: the first position of `c`, or -1. */
  function IndexOf(s: string, c: char): (i: int)
    ensures -1 <= i < |s|
    ensures i == -1 <==> c !in s
    ensures 0 <= i ==> s[i] == c && c !in s[..i]
  {
    if |s| == 0 then -1
    else if s[0] == c then 0
    else
      var j := IndexOf(s[1..], c);
      if j == -1 then -1
      else
        assert s[..j + 1] == [s[0]] + s[1..][..j];
        j + 1
  }

  /** The part of `s` before its first `#` (all of `s` when it has none). */
  function BeforeHash(s: string): (r: string)
    ensures r <= s && '#' !in r
    ensures |r| < |s| ==> s[|r|] == '#'
  {
    var i := IndexOf(s, '#');
    if i >= 0 then s[..i] else s
  }

  /**
   * A null or empty name, or one that is empty once everything from the
   * first `#` is cut, becomes "Guest"; otherwise the cut name is kept to at
   * most `MAX_NAME_LENGTH` characters.
   */
  function CleanPlayerName(name: Option<string>): (r: string)
    ensures 0 < |r| <= GameManager.MAX_NAME_LENGTH
    ensures '#' !in r
    ensures r == GUEST || (name.Some? && r <= name.value)
    ensures name.None? || name == Some("") ==> r == GUEST
    ensures name.Some? && |name.value| > 0 && name.value[0] == '#' ==> r == GUEST
  {
    if name.None? || |name.value| == 0 then GUEST
    else
      var s := name.value;
      var hashIndex := IndexOf(s, '#');
      var cut := if hashIndex >= 0 then s[..hashIndex] else s;
      if |cut| == 0 then GUEST
      else
        var r := if |cut| > GameManager.MAX_NAME_LENGTH then cut[..GameManager.MAX_NAME_LENGTH] else cut;
        assert r <= cut <= s;
        assert '#' !in r by {
          assert forall k | 0 <= k < |r| :: r[k] == s[k];
        }
        r
  }

  /** A non-empty name without `#` and at most five characters long is kept as it is. */
  lemma CleanPlayerNameKeepsShortNames(name: string)
    requires 0 < |name| <= GameManager.MAX_NAME_LENGTH && '#' !in name
    ensures CleanPlayerName(Some(name)) == name
  {
  }

  /** Cleaning a cleaned name changes nothing. */
  lemma CleanPlayerNameIdempotent(name: Option<string>)
    ensures CleanPlayerName(Some(CleanPlayerName(name))) == CleanPlayerName(name)
  {
    CleanPlayerNameKeepsShortNames(CleanPlayerName(name));
  }

  /**
   * Whenever something precedes the first `#`, cleaning is the truncation
   * `SavePlayerNameAsync` applies, taken of the part before the `#`.
   */
  lemma CleanPlayerNameTruncatesBeforeHash(name: string)
    requires |name| > 0 && name[0] != '#'
    ensures CleanPlayerName(Some(name)) == GameManager.TruncateName(BeforeHash(name))
  {
  }
}

=== FILE: serializable_dictionary.dfy ===
/**
 * `SerializableDictionary<TKey, TValue>`: a dictionary kept as a list of
 * key/value entries and turned into a real dictionary on demand.  The
 * dictionary is modelled as the list of entries it holds, in insertion
 * order (which is the order a C# `Dictionary` that is only ever added to
 * enumerates in), together with its map view `AsMap`.
 */
module SerializableDictionary {
  import opened Nullable

  datatype Entry<K, V> = Entry(key: K, value: V)

  /** The keys an entry list mentions. */
  function KeySet<K(==), V>(es: seq<Entry<K, V>>): set<K> {
    set i | 0 <= i < |es| :: es[i].key
  }

  predicate DistinctKeys<K(==), V>(es: seq<Entry<K, V>>) {
    forall i, j | 0 <= i < j < |es| :: es[i].key != es[j].key
  }

  /**
   * Reference definition of "the first occurrence wins": the value of the
   * earliest entry whose key is `k`, scanning from the front.
   */
  function FirstValue<K(==), V>(es: seq<Entry<K, V>>, k: K): Option<V> {
    if |es| == 0 then None
    else if es[0].key == k then Some(es[0].value)
    else FirstValue(es[1..], k)
  }

  /** The map view of a dictionary (its entries have distinct keys). */
  function AsMap<K(==), V>(d: seq<Entry<K, V>>): map<K, V> {
    if |d| == 0 then map[]
    else AsMap(d[..|d| - 1])[d[|d| - 1].key := d[|d| - 1].value]
  }

  function Lookup<K(==), V>(m: map<K, V>, k: K): Option<V> {
    if k in m then Some(m[k]) else None
  }

  /** One pass of the `foreach` in `OnAfterDeserialize`: add unless the key is taken. */
  function AddIfAbsent<K(==), V>(d: seq<Entry<K, V>>, e: Entry<K, V>): seq<Entry<K, V>> {
    if e.key in KeySet(d) then d else d + [e]
  }

  /** The dictionary `OnAfterDeserialize` builds: the loop over `entries`, as a left fold. */
  function Build<K(==), V>(es: seq<Entry<K, V>>): seq<Entry<K, V>> {
    if |es| == 0 then []
    else AddIfAbsent(Build(es[..|es| - 1]), es[|es| - 1])
  }

  /** The serialized entry list and the dictionary cached from it (`null` until built). */
  datatype SerialDict<K, V> = SerialDict(entries: seq<Entry<K, V>>, dict: Option<seq<Entry<K, V>>>)

  /** Rebuilds the cached dictionary from the entry list. */
  function OnAfterDeserialize<K(==,!new), V>(s: SerialDict<K, V>): (r: SerialDict<K, V>)
    ensures r.entries == s.entries && r.dict.Some?
    ensures DistinctKeys(r.dict.value)
    ensures forall k :: Lookup(AsMap(r.dict.value), k) == FirstValue(s.entries, k)
  {
    BuildIsFirstOccurrence(s.entries);
    BuildDistinct(s.entries);
    SerialDict(s.entries, Some(Build(s.entries)))
  }

  /**
   * Returns the dictionary, building it only when no dictionary is cached.
   * The returned state caches the returned dictionary.
   */
  function ToDictionary<K(==,!new), V>(s: SerialDict<K, V>): (r: (SerialDict<K, V>, seq<Entry<K, V>>))
    ensures r.0.entries == s.entries && r.0.dict == Some(r.1)
    ensures s.dict.Some? ==> r == (s, s.dict.value)
    ensures s.dict.None? ==> forall k :: Lookup(AsMap(r.1), k) == FirstValue(s.entries, k)
  {
    if s.dict.None? then
      var s' := OnAfterDeserialize(s);
      (s', s'.dict.value)
    else (s, s.dict.value)
  }

  /** The cache holds either nothing or the dictionary the entries build. */
  predicate Consistent<K(==), V(==)>(s: SerialDict<K, V>) {
    s.dict.None? || s.dict == Some(Build(s.entries))
  }

  // ---------------------------------------------------------------------
  // Properties of the build
  // ---------------------------------------------------------------------

  lemma {:induction false} FirstValueSnoc<K, V>(p: seq<Entry<K, V>>, e: Entry<K, V>, k: K)
    ensures FirstValue(p + [e], k)
         == if FirstValue(p, k).Some? then FirstValue(p, k)
            else if e.key == k then Some(e.value) else None
  {
    if |p| == 0 {
      assert p + [e] == [e];
      assert ([e])[1..] == [];
    } else {
      assert (p + [e])[1..] == p[1..] + [e];
      FirstValueSnoc(p[1..], e, k);
    }
  }

  lemma {:induction false} FirstValueFindsKeys<K, V>(es: seq<Entry<K, V>>, k: K)
    ensures FirstValue(es, k).Some? <==> k in KeySet(es)
  {
    if |es| > 0 {
      FirstValueFindsKeys(es[1..], k);
      assert es == [es[0]] + es[1..];
      assert KeySet(es) == {es[0].key} + KeySet(es[1..]);
    }
  }

  lemma {:induction false} AsMapKeys<K, V>(d: seq<Entry<K, V>>)
    ensures AsMap(d).Keys == KeySet(d)
  {
    if |d| > 0 {
      var p := d[..|d| - 1];
      AsMapKeys(p);
      assert d == p + [d[|d| - 1]];
      assert KeySet(d) == KeySet(p) + {d[|d| - 1].key};
    }
  }

  /** One more entry keeps the first-occurrence property for a key that had it. */
  lemma BuildSnocLookup<K, V>(p: seq<Entry<K, V>>, e: Entry<K, V>, k: K)
    requires Lookup(AsMap(Build(p)), k) == FirstValue(p, k)
    ensures Lookup(AsMap(Build(p + [e])), k) == FirstValue(p + [e], k)
  {
    var b := Build(p);
    assert (p + [e])[..|p + [e]| - 1] == p;
    assert Build(p + [e]) == AddIfAbsent(b, e);
    FirstValueSnoc(p, e, k);
    AsMapKeys(b);
    if e.key !in KeySet(b) {
      assert (b + [e])[..|b + [e]| - 1] == b;
    }
  }

  /**
   * The map `OnAfterDeserialize` builds holds, for every key, the value of
   * that key's first entry, and nothing for a key no entry has: later
   * duplicates are ignored.
   */
  lemma {:induction false} BuildIsFirstOccurrence<K, V>(es: seq<Entry<K, V>>)
    ensures forall k :: Lookup(AsMap(Build(es)), k) == FirstValue(es, k)
  {
    if |es| > 0 {
      var p, e := es[..|es| - 1], es[|es| - 1];
      assert es == p + [e];
      BuildIsFirstOccurrence(p);
      forall k
        ensures Lookup(AsMap(Build(p + [e])), k) == FirstValue(p + [e], k)
      {
        BuildSnocLookup(p, e, k);
      }
    }
  }

  /** The built dictionary has exactly the keys the entry list mentions. */
  lemma BuildKeys<K, V>(es: seq<Entry<K, V>>)
    ensures KeySet(Build(es)) == KeySet(es)
    ensures AsMap(Build(es)).Keys == KeySet(es)
  {
    BuildIsFirstOccurrence(es);
    AsMapKeys(Build(es));
    forall k
      ensures k in KeySet(Build(es)) <==> k in KeySet(es)
    {
      FirstValueFindsKeys(es, k);
      assert Lookup(AsMap(Build(es)), k) == FirstValue(es, k);
    }
  }

  lemma {:induction false} BuildDistinct<K, V>(es: seq<Entry<K, V>>)
    ensures DistinctKeys(Build(es))
  {
    if |es| > 0 {
      BuildDistinct(es[..|es| - 1]);
    }
  }

  lemma DistinctSnoc<K, V>(p: seq<Entry<K, V>>, e: Entry<K, V>)
    ensures DistinctKeys(p + [e]) <==> DistinctKeys(p) && e.key !in KeySet(p)
  {
    var q := p + [e];
    if DistinctKeys(q) {
      assert forall i, j | 0 <= i < j < |p| :: p[i] == q[i] && p[j] == q[j];
      forall i | 0 <= i < |p|
        ensures p[i].key != e.key
      {
        assert q[i] == p[i] && q[|p|] == e;
      }
    }
  }

  lemma {:induction false} AsMapSize<K, V>(d: seq<Entry<K, V>>)
    requires DistinctKeys(d)
    ensures |AsMap(d)| == |d|
  {
    if |d| > 0 {
      var p, e := d[..|d| - 1], d[|d| - 1];
      assert d == p + [e];
      DistinctSnoc(p, e);
      AsMapSize(p);
      AsMapKeys(p);
    }
  }

  /**
   * The built map never has more keys than there are entries, and has
   * exactly as many precisely when no key is repeated.
   */
  lemma {:induction false} BuildSize<K, V>(es: seq<Entry<K, V>>)
    ensures |AsMap(Build(es))| == |Build(es)| <= |es|
    ensures |AsMap(Build(es))| == |es| <==> DistinctKeys(es)
  {
    BuildDistinct(es);
    AsMapSize(Build(es));
    if |es| > 0 {
      var p, e := es[..|es| - 1], es[|es| - 1];
      assert es == p + [e];
      BuildSize(p);
      BuildKeys(p);
      DistinctSnoc(p, e);
    }
  }

  // ---------------------------------------------------------------------
  // Properties of the lazy cache
  // ---------------------------------------------------------------------

  /**
   * A second `ToDictionary` returns the same dictionary and leaves the
   * state as the first call left it: nothing is rebuilt.
   */
  lemma ToDictionaryIdempotent<K(!new), V>(s: SerialDict<K, V>)
    ensures ToDictionary(ToDictionary(s).0) == ToDictionary(s)
  {
  }

  /**
   * Whether or not the cache is filled, `ToDictionary` returns the
   * dictionary the entries build, and keeps the cache consistent.
   */
  lemma ToDictionaryReturnsBuild<K(!new), V>(s: SerialDict<K, V>)
    requires Consistent(s)
    ensures ToDictionary(s).1 == Build(s.entries)
    ensures Consistent(ToDictionary(s).0)
  {
  }
}

=== FILE: singleton.dfy ===
/**
 * `Singleton<T>`: the first instance to wake up registers itself in the
 * static slot `I`; later instances destroy themselves; only the
 * registered instance clears the slot when it is destroyed.
 */
module Singleton {
  import opened Nullable

  /** An instance of the component, by identity. */
  type InstanceId = nat

  /** The per-type overrides `UseDontDestroyOnLoad` and `DestroyTargetGameObject`. */
  datatype Options = Options(useDontDestroyOnLoad: bool, destroyTargetGameObject: bool)

  /** What a lifecycle callback does besides updating the slot. */
  datatype Effect =
    | Init(id: InstanceId)
    | DontDestroyOnLoad(id: InstanceId)
    | DestroyGameObject(id: InstanceId)
    | DestroyComponent(id: InstanceId)
    | OnRelease(id: InstanceId)

  /** The static slot `I` after a callback (null when empty) and what the callback did besides. */
  datatype Step = Step(holder: Option<InstanceId>, effects: seq<Effect>)

  /** `IsValid`: an instance is registered in the slot. */
  predicate IsValid(holder: Option<InstanceId>) {
    holder.Some?
  }

  /**
   * `Awake`: an empty slot takes this instance and runs `Init` once; an
   * occupied slot is left as it is and this instance (or its whole
   * GameObject) is destroyed instead, without `Init`.
   */
  function Awake(holder: Option<InstanceId>, opts: Options, self: InstanceId): (r: Step)
    ensures holder.None? ==>
      && r.holder == Some(self)
      && r.effects == [Init(self)] + (if opts.useDontDestroyOnLoad then [DontDestroyOnLoad(self)] else [])
    ensures holder.Some? ==>
      && r.holder == holder
      && r.effects == [if opts.destroyTargetGameObject then DestroyGameObject(self) else DestroyComponent(self)]
  {
    if holder.None? then
      Step(Some(self), [Init(self)] + (if opts.useDontDestroyOnLoad then [DontDestroyOnLoad(self)] else []))
    else
      Step(holder, [if opts.destroyTargetGameObject then DestroyGameObject(self) else DestroyComponent(self)])
  }

  /** `OnDestroy`: only the registered instance empties the slot and runs `OnRelease`. */
  function OnDestroy(holder: Option<InstanceId>, self: InstanceId): (r: Step)
    ensures holder == Some(self) ==> r == Step(None, [OnRelease(self)])
    ensures holder != Some(self) ==> r == Step(holder, [])
  {
    if holder == Some(self) then Step(None, [OnRelease(self)]) else Step(holder, [])
  }

  /** A lifecycle callback delivered to an instance. */
  datatype Event = Awoken(id: InstanceId) | Destroyed(id: InstanceId)

  function Apply(holder: Option<InstanceId>, opts: Options, e: Event): Step {
    match e
    case Awoken(id) => Awake(holder, opts, id)
    case Destroyed(id) => OnDestroy(holder, id)
  }

  /** Delivers the callbacks in order, from the given slot, collecting their effects. */
  function Run(holder: Option<InstanceId>, opts: Options, events: seq<Event>): Step
    decreases |events|
  {
    if |events| == 0 then Step(holder, [])
    else
      var before := Run(holder, opts, events[..|events| - 1]);
      var last := Apply(before.holder, opts, events[|events| - 1]);
      Step(last.holder, before.effects + last.effects)
  }

  function CountInits(effects: seq<Effect>): nat {
    if |effects| == 0 then 0
    else CountInits(effects[..|effects| - 1]) + (if effects[|effects| - 1].Init? then 1 else 0)
  }

  function CountReleases(effects: seq<Effect>): nat {
    if |effects| == 0 then 0
    else CountReleases(effects[..|effects| - 1]) + (if effects[|effects| - 1].OnRelease? then 1 else 0)
  }

  lemma {:induction false} CountsAppend(a: seq<Effect>, b: seq<Effect>)
    ensures CountInits(a + b) == CountInits(a) + CountInits(b)
    ensures CountReleases(a + b) == CountReleases(a) + CountReleases(b)
    decreases |b|
  {
    if |b| == 0 {
      assert a + b == a;
    } else {
      assert (a + b)[..|a + b| - 1] == a + b[..|b| - 1];
      CountsAppend(a, b[..|b| - 1]);
    }
  }

  /** `Init` has run once more than `OnRelease` when an instance is registered, equally often otherwise. */
  predicate Balanced(r: Step) {
    CountInits(r.effects) == CountReleases(r.effects) + (if IsValid(r.holder) then 1 else 0)
  }

  /**
   * `Init` and `OnRelease` alternate: after any sequence of lifecycle
   * callbacks starting from an empty slot, at most one instance has been
   * initialised and not yet released, and it is the one in the slot.
   */
  lemma {:induction false} InitAndReleaseAlternate(opts: Options, events: seq<Event>)
    ensures Balanced(Run(None, opts, events))
    decreases |events|
  {
    if |events| > 0 {
      var before := Run(None, opts, events[..|events| - 1]);
      InitAndReleaseAlternate(opts, events[..|events| - 1]);
      var last := Apply(before.holder, opts, events[|events| - 1]);
      CountsAppend(before.effects, last.effects);
      ApplyCounts(before.holder, opts, events[|events| - 1]);
    }
  }

  /**
   * `IsValid` after any sequence of callbacks from an empty slot holds
   * exactly when some `Init` has not yet been matched by an `OnRelease`.
   */
  lemma IsValidIffInitPending(opts: Options, events: seq<Event>)
    ensures IsValid(Run(None, opts, events).holder)
      <==> CountReleases(Run(None, opts, events).effects) < CountInits(Run(None, opts, events).effects)
  {
    InitAndReleaseAlternate(opts, events);
  }

  lemma CountSingle(e: Effect)
    ensures CountInits([e]) == (if e.Init? then 1 else 0)
    ensures CountReleases([e]) == (if e.OnRelease? then 1 else 0)
  {
    assert [e][..0] == [];
  }

  /** One callback runs `Init` only when it fills the slot and `OnRelease` only when it empties it. */
  lemma ApplyCounts(holder: Option<InstanceId>, opts: Options, ev: Event)
    ensures CountInits(Apply(holder, opts, ev).effects) == (if holder.None? && ev.Awoken? then 1 else 0)
    ensures CountReleases(Apply(holder, opts, ev).effects) == (if ev.Destroyed? && holder == Some(ev.id) then 1 else 0)
  {
    var e := Apply(holder, opts, ev).effects;
    if |e| == 0 {
    } else if |e| == 1 {
      CountSingle(e[0]);
      assert e == [e[0]];
    } else {
      assert e == [e[0]] + [e[1]];
      CountSingle(e[0]);
      CountSingle(e[1]);
      CountsAppend([e[0]], [e[1]]);
    }
  }

  /** The registered instance, if any, woke up and has not been destroyed since. */
  lemma {:induction false} HolderIsLiveAwakened(opts: Options, events: seq<Event>)
    ensures var h := Run(None, opts, events).holder;
      h.Some? ==> exists i | 0 <= i < |events| :: LiveSince(events, i, h.value)
    decreases |events|
  {
    if |events| > 0 {
      var prefix := events[..|events| - 1];
      HolderIsLiveAwakened(opts, prefix);
      var before := Run(None, opts, prefix);
      var h := Run(None, opts, events).holder;
      if h.Some? {
        if before.holder.None? {
          assert LiveSince(events, |events| - 1, h.value);
        } else {
          assert before.holder == h;
          var i :| 0 <= i < |prefix| && LiveSince(prefix, i, h.value);
          assert LiveSince(events, i, h.value);
        }
      }
    }
  }

  /** Event `i` woke instance `id` and no later event destroyed it. */
  predicate LiveSince(events: seq<Event>, i: int, id: InstanceId) {
    && 0 <= i < |events|
    && events[i] == Awoken(id)
    && forall j | i < j < |events| :: events[j] != Destroyed(id)
  }
}

=== FILE: stage_manager.dfy ===
/**
 * `StageManager`: the endless-runner stage streamer.  Stages are placed
 * one `zOffset` apart along the travel axis, starting at `initOffset`;
 * the live stages form a FIFO queue; each frame a new stage is spawned
 * when the player nears the far end of the newest one, and the oldest is
 * handed back to the pool once the queue outgrows `initStageCount`.
 *
 * The streamer is a pure step function.  The random draw (`Random.value`)
 * and the player's position are parameters; the object pool is reduced to
 * the calls made on it (`PoolCall`), and the handle the pool returns for
 * the k-th `GetObj` is the stage with id k.
 */
module StageManager {
  import opened Nullable
  import opened Vector
  import SD = SerializableDictionary

  datatype StageType = NormalArea1 | NormalArea2 | NormalArea3 | NormalArea4

  /** A prefab reference, by identity. */
  type Prefab = nat

  /** A stage variant: its prefab (possibly unset) and its spawn weight. */
  datatype StageData = StageData(stagePrefab: Option<Prefab>, probability: real)

  /** The built stage dictionary, in enumeration order. */
  type StageTable = seq<SD.Entry<StageType, StageData>>

  // ---------------------------------------------------------------------
  // Weighted selection
  // ---------------------------------------------------------------------

  /** Sum of the weights, in enumeration order. */
  function TotalWeight(d: StageTable): real {
    if |d| == 0 then 0.0 else TotalWeight(d[..|d| - 1]) + d[|d| - 1].value.probability
  }

  /** The running sum after the first `n` entries. */
  function Cumulative(d: StageTable, n: nat): real
    requires n <= |d|
  {
    TotalWeight(d[..n])
  }

  /** Entry `i` is a candidate: the running sum including it is at least `rand`. */
  predicate Reaches(d: StageTable, rand: real, i: nat)
    requires i < |d|
  {
    rand <= Cumulative(d, i + 1)
  }

  /** Entry `i` is the earliest candidate. */
  predicate IsFirstReaching(d: StageTable, rand: real, i: nat) {
    && i < |d|
    && Reaches(d, rand, i)
    && forall j | 0 <= j < i :: !Reaches(d, rand, j)
  }

  lemma CumulativeStep(d: StageTable, i: nat)
    requires i < |d|
    ensures Cumulative(d, i + 1) == Cumulative(d, i) + d[i].value.probability
  {
    assert d[..i + 1][..i] == d[..i];
  }

  /**
   * The cumulative walk: entries before `i` have been passed over and
   * `cumulative` is their running sum.  Returns the index picked.
   */
  function WalkFrom(d: StageTable, rand: real, i: nat, cumulative: real): (r: Option<nat>)
    requires i <= |d| && cumulative == Cumulative(d, i)
    requires forall j | 0 <= j < i :: !Reaches(d, rand, j)
    ensures r.Some? ==> IsFirstReaching(d, rand, r.value)
    ensures r.None? ==> forall j | 0 <= j < |d| :: !Reaches(d, rand, j)
    decreases |d| - i
  {
    if i == |d| then None
    else
      CumulativeStep(d, i);
      var c := cumulative + d[i].value.probability;
      if rand <= c then Some(i) else WalkFrom(d, rand, i + 1, c)
  }

  /** The stage dictionary as `ToDictionary` returns it. */
  function Table(dict: SD.SerialDict<StageType, StageData>): StageTable {
    SD.ToDictionary(dict).1
  }

  /** The draw scaled to the total weight: `rand` in the source. */
  function Target(dict: SD.SerialDict<StageType, StageData>, r: real): real {
    r * TotalWeight(Table(dict))
  }

  /**
   * `GetRandomStage`, with `r` the value of `Random.value`: null when the
   * weights sum to at most zero, otherwise the first entry whose running
   * weight reaches `r * total`.
   */
  function GetRandomStage(dict: SD.SerialDict<StageType, StageData>, r: real): (pick: Option<StageData>)
    ensures TotalWeight(Table(dict)) <= 0.0 ==> pick.None?
    ensures TotalWeight(Table(dict)) > 0.0 ==>
      forall i: nat | IsFirstReaching(Table(dict), Target(dict, r), i) :: pick == Some(Table(dict)[i].value)
    ensures pick.Some? ==>
      exists i: nat :: IsFirstReaching(Table(dict), Target(dict, r), i) && pick == Some(Table(dict)[i].value)
  {
    var d := Table(dict);
    var total := TotalWeight(d);
    if total <= 0.0 then None
    else
      var rand := Target(dict, r);
      match WalkFrom(d, rand, 0, 0.0)
      case None => None
      case Some(i) =>
        FirstReachingUnique(d, rand, i);
        Some(d[i].value)
  }

  lemma FirstReachingUnique(d: StageTable, rand: real, i: nat)
    requires IsFirstReaching(d, rand, i)
    ensures forall j: nat | IsFirstReaching(d, rand, j) :: j == i
  {
  }

  lemma MulAtMostOne(r: real, t: real)
    requires r <= 1.0 && 0.0 <= t
    ensures r * t <= t
  {
    assert t - r * t == (1.0 - r) * t;
  }

  /**
   * In exact arithmetic a positive total and a draw in [0, 1] always pick
   * a stage: the last running sum is the total itself.
   */
  lemma GetRandomStageNonNull(dict: SD.SerialDict<StageType, StageData>, r: real)
    requires 0.0 <= r <= 1.0
    requires TotalWeight(Table(dict)) > 0.0
    ensures GetRandomStage(dict, r).Some?
  {
    var d := Table(dict);
    var total := TotalWeight(d);
    MulAtMostOne(r, total);
    assert d[..|d|] == d;
    assert |d| > 0;
    assert Reaches(d, r * total, |d| - 1);
    var w := WalkFrom(d, r * total, 0, 0.0);
    assert w.Some?;
  }

  lemma {:induction false} CumulativeMonotone(d: StageTable, i: nat, j: nat)
    requires i <= j <= |d|
    requires forall k | 0 <= k < |d| :: d[k].value.probability >= 0.0
    ensures Cumulative(d, i) <= Cumulative(d, j)
    decreases j - i
  {
    if i < j {
      CumulativeStep(d, j - 1);
      CumulativeMonotone(d, i, j - 1);
    }
  }

  /**
   * With non-negative weights and a positive target, entry `i` is picked
   * exactly when the target falls in `(Cumulative(i), Cumulative(i + 1)]`,
   * an interval whose width is the entry's weight.
   */
  lemma PickedIffInInterval(d: StageTable, rand: real, i: nat)
    requires forall k | 0 <= k < |d| :: d[k].value.probability >= 0.0
    requires 0.0 < rand
    requires i < |d|
    ensures IsFirstReaching(d, rand, i) <==> Cumulative(d, i) < rand <= Cumulative(d, i + 1)
  {
    CumulativeStep(d, i);
    if IsFirstReaching(d, rand, i) {
      if i > 0 {
        assert !Reaches(d, rand, i - 1);
      } else {
        assert d[..0] == [];
      }
    }
    if Cumulative(d, i) < rand <= Cumulative(d, i + 1) {
      forall j | 0 <= j < i
        ensures !Reaches(d, rand, j)
      {
        CumulativeMonotone(d, j + 1, i);
      }
    }
  }

  // ---------------------------------------------------------------------
  // The streamer
  // ---------------------------------------------------------------------

  /** A live stage: the k-th object taken from the pool, its prefab and its z. */
  datatype Stage = Stage(id: nat, prefab: Prefab, z: real)

  /** A call made on the pool behind `StageFactory`. */
  datatype PoolCall = GetObj(prefab: Prefab, pos: Vec3) | ReturnObj(stage: Stage)

  datatype Config = Config(
    stageDataDict: SD.SerialDict<StageType, StageData>,
    zOffset: real,
    initStageCount: int,
    spawnThreshold: real,
    initOffset: real)

  /** The live-stage queue, the spawn cursor `spawnPos.z`, and how many stages were ever spawned. */
  datatype State = State(queue: seq<Stage>, cursorZ: real, nextId: nat)

  /** A step's resulting state and the pool calls it made, in order. */
  datatype Tick = Tick(next: State, calls: seq<PoolCall>)

  /** The state after `Init`: an empty queue and the cursor at `initOffset`. */
  function Init(cfg: Config): (s: State)
    ensures s.queue == [] && s.nextId == 0
    ensures s.cursorZ == cfg.initOffset
  {
    State([], 0.0 + cfg.initOffset, 0)
  }

  /** The draw `r` yields stage data with a prefab. */
  predicate ValidPick(cfg: Config, r: real) {
    var data := GetRandomStage(cfg.stageDataDict, r);
    data.Some? && data.value.stagePrefab.Some?
  }

  function PickedPrefab(cfg: Config, r: real): Prefab
    requires ValidPick(cfg, r)
  {
    GetRandomStage(cfg.stageDataDict, r).value.stagePrefab.value
  }

  /**
   * `SpawnNextStage`: a null pick or a pick without a prefab changes
   * nothing; otherwise one stage is taken from the pool at the cursor,
   * appended to the queue, and the cursor moves one `zOffset` forward.
   */
  function SpawnNextStage(cfg: Config, s: State, r: real): (t: Tick)
    ensures !ValidPick(cfg, r) ==> t == Tick(s, [])
    ensures ValidPick(cfg, r) ==>
      && t.next.queue == s.queue + [Stage(s.nextId, PickedPrefab(cfg, r), s.cursorZ)]
      && t.next.cursorZ == s.cursorZ + cfg.zOffset
      && t.next.nextId == s.nextId + 1
      && t.calls == [GetObj(PickedPrefab(cfg, r), Vec3(0.0, 0.0, s.cursorZ))]
  {
    var data := GetRandomStage(cfg.stageDataDict, r);
    if data.None? || data.value.stagePrefab.None? then Tick(s, [])
    else
      var prefab := data.value.stagePrefab.value;
      var stage := Stage(s.nextId, prefab, s.cursorZ);
      Tick(State(s.queue + [stage], s.cursorZ + cfg.zOffset, s.nextId + 1),
           [GetObj(prefab, Vec3(0.0, 0.0, s.cursorZ))])
  }

  /** Spawns once per draw, in order. */
  function SpawnEach(cfg: Config, s: State, draws: seq<real>): Tick
    decreases |draws|
  {
    if |draws| == 0 then Tick(s, [])
    else
      var first := SpawnNextStage(cfg, s, draws[0]);
      var rest := SpawnEach(cfg, first.next, draws[1..]);
      Tick(rest.next, first.calls + rest.calls)
  }

  /** How many times `for (int i = 0; i < n; i++)` runs. */
  function LoopCount(n: int): nat {
    if n < 0 then 0 else n
  }

  /**
   * `Start`: the warm-up burst of `initStageCount` spawns, one draw each.
   * It only takes from the pool: every live stage stays, and each call
   * adds one stage.
   */
  function Start(cfg: Config, s: State, draws: seq<real>): (t: Tick)
    requires |draws| == LoopCount(cfg.initStageCount)
    ensures |s.queue| <= |t.next.queue| <= |s.queue| + LoopCount(cfg.initStageCount)
    ensures t.next.queue[..|s.queue|] == s.queue
    ensures |t.calls| == |t.next.queue| - |s.queue|
    ensures forall i | 0 <= i < |t.calls| :: t.calls[i].GetObj?
    ensures Spaced(cfg, s) ==> Spaced(cfg, t.next)
  {
    SpawnEachCount(cfg, s, draws);
    if Spaced(cfg, s) then SpawnEachKeepsSpaced(cfg, s, draws); SpawnEach(cfg, s, draws)
    else SpawnEach(cfg, s, draws)
  }

  /** Where the newest stage ends: its position plus one `zOffset` along z. */
  function TailEnd(cfg: Config, s: State): Vec3
    requires |s.queue| > 0
  {
    Vec3(0.0, 0.0, s.queue[|s.queue| - 1].z + cfg.zOffset)
  }

  /** The player exists, a stage is live, and the player is within `spawnThreshold` of the tail's end. */
  predicate ShouldSpawn(cfg: Config, s: State, player: Option<Vec3>) {
    player.Some? && |s.queue| > 0 && DistanceLess(player.value, TailEnd(cfg, s), cfg.spawnThreshold)
  }

  /** At most one spawn, at most one eviction, and an eviction comes after the spawn. */
  predicate SpawnThenEvict(calls: seq<PoolCall>) {
    && |calls| <= 2
    && (|calls| == 2 ==> calls[0].GetObj? && calls[1].ReturnObj?)
  }

  /**
   * `Update` for one frame, with the player's position (null when there is
   * no player) and the draw used if a stage is spawned.
   */
  function Update(cfg: Config, s: State, player: Option<Vec3>, r: real): (t: Tick)
    ensures !ShouldSpawn(cfg, s, player) ==> t == Tick(s, [])
    ensures SpawnThenEvict(t.calls)
    ensures (|t.calls| > 0 && t.calls[0].GetObj?) <==> ShouldSpawn(cfg, s, player) && ValidPick(cfg, r)
    ensures forall i | 0 <= i < |t.calls| && t.calls[i].ReturnObj? ::
      t.calls[i].stage == s.queue[0]
      && t.next.queue == SpawnNextStage(cfg, s, r).next.queue[1..]
    ensures (exists i | 0 <= i < |t.calls| :: t.calls[i].ReturnObj?)
      <==> ShouldSpawn(cfg, s, player) && |SpawnNextStage(cfg, s, r).next.queue| > cfg.initStageCount
    ensures ShouldSpawn(cfg, s, player) && |SpawnNextStage(cfg, s, r).next.queue| <= cfg.initStageCount
      ==> t == SpawnNextStage(cfg, s, r)
    ensures ShouldSpawn(cfg, s, player) ==>
      |SpawnNextStage(cfg, s, r).calls| <= |t.calls|
      && t.calls[..|SpawnNextStage(cfg, s, r).calls|] == SpawnNextStage(cfg, s, r).calls
    ensures ShouldSpawn(cfg, s, player) ==>
      t.next.cursorZ == SpawnNextStage(cfg, s, r).next.cursorZ && t.next.nextId == SpawnNextStage(cfg, s, r).next.nextId
    ensures |s.queue| <= cfg.initStageCount ==> |t.next.queue| <= cfg.initStageCount
  {
    if !ShouldSpawn(cfg, s, player) then Tick(s, [])
    else
      var spawned := SpawnNextStage(cfg, s, r);
      var q := spawned.next.queue;
      if |q| > cfg.initStageCount then
        Tick(spawned.next.(queue := q[1..]), spawned.calls + [ReturnObj(q[0])])
      else spawned
  }

  // ---------------------------------------------------------------------
  // Placement invariant
  // ---------------------------------------------------------------------

  /**
   * The queue holds the most recent `|queue|` stages ever spawned, oldest
   * first, and the stage with id k sits at `initOffset + k * zOffset`; the
   * cursor is where stage `nextId` will go.
   */
  predicate Spaced(cfg: Config, s: State) {
    && |s.queue| <= s.nextId
    && s.cursorZ == cfg.initOffset + s.nextId as real * cfg.zOffset
    && forall i | 0 <= i < |s.queue| ::
         && s.queue[i].id == s.nextId - |s.queue| + i
         && s.queue[i].z == cfg.initOffset + s.queue[i].id as real * cfg.zOffset
  }

  lemma InitSpaced(cfg: Config)
    ensures Spaced(cfg, Init(cfg))
  {
  }

  /** A spawn keeps stages evenly spaced: the new stage lands exactly one `zOffset` past the previous one. */
  lemma SpawnKeepsSpaced(cfg: Config, s: State, r: real)
    requires Spaced(cfg, s)
    ensures Spaced(cfg, SpawnNextStage(cfg, s, r).next)
  {
    if ValidPick(cfg, r) {
      var s' := SpawnNextStage(cfg, s, r).next;
      assert s'.cursorZ == cfg.initOffset + s'.nextId as real * cfg.zOffset by {
        assert s'.nextId as real * cfg.zOffset == s.nextId as real * cfg.zOffset + cfg.zOffset;
      }
    }
  }

  lemma {:induction false} SpawnEachKeepsSpaced(cfg: Config, s: State, draws: seq<real>)
    requires Spaced(cfg, s)
    ensures Spaced(cfg, SpawnEach(cfg, s, draws).next)
    decreases |draws|
  {
    if |draws| > 0 {
      SpawnKeepsSpaced(cfg, s, draws[0]);
      SpawnEachKeepsSpaced(cfg, SpawnNextStage(cfg, s, draws[0]).next, draws[1..]);
    }
  }

  /** Dropping the oldest stage keeps the rest evenly spaced. */
  lemma DropOldestKeepsSpaced(cfg: Config, s: State)
    requires Spaced(cfg, s) && |s.queue| > 0
    ensures Spaced(cfg, s.(queue := s.queue[1..]))
  {
    var q := s.queue[1..];
    forall i | 0 <= i < |q|
      ensures q[i].id == s.nextId - |q| + i
    {
      assert q[i] == s.queue[i + 1];
    }
  }

  /** An `Update` keeps stages evenly spaced. */
  lemma UpdateKeepsSpaced(cfg: Config, s: State, player: Option<Vec3>, r: real)
    requires Spaced(cfg, s)
    ensures Spaced(cfg, Update(cfg, s, player, r).next)
  {
    if ShouldSpawn(cfg, s, player) {
      var spawned := SpawnNextStage(cfg, s, r);
      SpawnKeepsSpaced(cfg, s, r);
      if |spawned.next.queue| > cfg.initStageCount {
        DropOldestKeepsSpaced(cfg, spawned.next);
      }
    }
  }

  /**
   * Eviction hands back the oldest live stage: every stage still live
   * after the step is newer than the one returned.
   */
  lemma UpdateEvictsOldest(cfg: Config, s: State, player: Option<Vec3>, r: real)
    requires Spaced(cfg, s)
    ensures forall i | 0 <= i < |Update(cfg, s, player, r).calls| && Update(cfg, s, player, r).calls[i].ReturnObj? ::
      forall q | q in Update(cfg, s, player, r).next.queue :: q.id > Update(cfg, s, player, r).calls[i].stage.id
  {
    SpawnKeepsSpaced(cfg, s, r);
  }

  /** Once the window is full it stays full: later frames keep exactly `initStageCount` stages. */
  lemma UpdateKeepsFullWindow(cfg: Config, s: State, player: Option<Vec3>, r: real)
    requires |s.queue| == cfg.initStageCount
    ensures |Update(cfg, s, player, r).next.queue| == cfg.initStageCount
  {
  }

  /**
   * Within the window, a frame whose draw picks no prefab changes nothing:
   * the queue did not grow, so nothing is evicted either.
   */
  lemma FailedSpawnNeverEvicts(cfg: Config, s: State, player: Option<Vec3>, r: real)
    requires |s.queue| <= cfg.initStageCount && !ValidPick(cfg, r)
    ensures Update(cfg, s, player, r) == Tick(s, [])
  {
  }

  /** A window that is short of `initStageCount` grows by one on every successful spawn. */
  lemma ShortWindowRefills(cfg: Config, s: State, player: Option<Vec3>, r: real)
    requires |s.queue| < cfg.initStageCount
    requires ShouldSpawn(cfg, s, player) && ValidPick(cfg, r)
    ensures |Update(cfg, s, player, r).next.queue| == |s.queue| + 1
    ensures Update(cfg, s, player, r).next.queue[..|s.queue|] == s.queue
  {
  }

  /**
   * Every draw that picks a prefab adds one stage and makes one pool
   * call; no draw removes a stage.
   */
  lemma {:induction false} SpawnEachCount(cfg: Config, s: State, draws: seq<real>)
    ensures |s.queue| <= |SpawnEach(cfg, s, draws).next.queue| <= |s.queue| + |draws|
    ensures SpawnEach(cfg, s, draws).next.queue[..|s.queue|] == s.queue
    ensures |SpawnEach(cfg, s, draws).calls| == |SpawnEach(cfg, s, draws).next.queue| - |s.queue|
    ensures forall i | 0 <= i < |SpawnEach(cfg, s, draws).calls| :: SpawnEach(cfg, s, draws).calls[i].GetObj?
    ensures (forall i | 0 <= i < |draws| :: ValidPick(cfg, draws[i])) ==>
      |SpawnEach(cfg, s, draws).next.queue| == |s.queue| + |draws|
    decreases |draws|
  {
    if |draws| > 0 {
      var first := SpawnNextStage(cfg, s, draws[0]);
      SpawnEachCount(cfg, first.next, draws[1..]);
      var rest := SpawnEach(cfg, first.next, draws[1..]);
      assert rest.next.queue[..|s.queue|] == s.queue by {
        assert first.next.queue[..|s.queue|] == s.queue;
        assert rest.next.queue[..|s.queue|] == rest.next.queue[..|first.next.queue|][..|s.queue|];
      }
      if forall i | 0 <= i < |draws| :: ValidPick(cfg, draws[i]) {
        assert ValidPick(cfg, draws[0]);
        assert forall i | 0 <= i < |draws[1..]| :: ValidPick(cfg, draws[1..][i]) by {
          forall i | 0 <= i < |draws[1..]| ensures ValidPick(cfg, draws[1..][i]) {
            assert draws[1..][i] == draws[i + 1];
          }
        }
      }
    }
  }

  /**
   * Warm-up from the initial state leaves at most `initStageCount`
   * stages, exactly that many when every draw picks a prefab, placed
   * `zOffset` apart from `initOffset` on.
   */
  lemma WarmUp(cfg: Config, draws: seq<real>)
    requires |draws| == LoopCount(cfg.initStageCount)
    ensures |Start(cfg, Init(cfg), draws).next.queue| <= LoopCount(cfg.initStageCount)
    ensures (forall i | 0 <= i < |draws| :: ValidPick(cfg, draws[i])) ==>
      |Start(cfg, Init(cfg), draws).next.queue| == LoopCount(cfg.initStageCount)
    ensures Spaced(cfg, Start(cfg, Init(cfg), draws).next)
  {
    SpawnEachCount(cfg, Init(cfg), draws);
    InitSpaced(cfg);
    SpawnEachKeepsSpaced(cfg, Init(cfg), draws);
  }
}

=== FILE: transform_helper.dfy ===
/**
 * `TransformHelper`: small extension methods on `Transform` and `Vector3`.
 * A `Transform` reference that may be null is an `Option<Transform>`.
 */
module TransformHelper {
  import opened Nullable
  import opened Vector

  /** The parts of a `Transform` the helpers read or write. */
  datatype Transform = Transform(position: Vec3, rotation: Quaternion, localScale: Vec3)

  /** Puts the transform at the world origin, unrotated, at unit scale; null stays null. */
  function ResetWorldTransform(t: Option<Transform>): (r: Option<Transform>)
    ensures r.Some? <==> t.Some?
    ensures r.Some? ==> r.value.position == Zero && r.value.rotation == Identity && r.value.localScale == One
  {
    match t
    case None => None
    case Some(tr) => Some(tr.(position := Zero, rotation := Identity, localScale := One))
  }

  /** The position projected onto the ground plane; the zero vector for null. */
  function GetPositionXZ(t: Option<Transform>): (r: Vec3)
    ensures r.y == 0.0
    ensures t.None? ==> r == Zero
    ensures t.Some? ==> r.x == t.value.position.x && r.z == t.value.position.z
  {
    match t
    case None => Zero
    case Some(tr) => Vec3(tr.position.x, 0.0, tr.position.z)
  }

  function Abs(x: int): int {
    if x < 0 then -x else x
  }

  /** `|a - b| <= threshold`, computed without overflow. */
  function IsCloseTo(a: int, b: int, threshold: int := 2): (r: bool)
    ensures r <==> b - threshold <= a <= b + threshold
  {
    Abs(a - b) <= threshold
  }

  function WithX(v: Vec3, x: real): Vec3 { Vec3(x, v.y, v.z) }
  function WithY(v: Vec3, y: real): Vec3 { Vec3(v.x, y, v.z) }
  function WithZ(v: Vec3, z: real): Vec3 { Vec3(v.x, v.y, z) }

  function AddX(v: Vec3, x: real): Vec3 { Vec3(v.x + x, v.y, v.z) }
  function AddY(v: Vec3, y: real): Vec3 { Vec3(v.x, v.y + y, v.z) }
  function AddZ(v: Vec3, z: real): Vec3 { Vec3(v.x, v.y, v.z + z) }

  function MulX(v: Vec3, x: real): Vec3 { Vec3(v.x * x, v.y, v.z) }
  function MulY(v: Vec3, y: real): Vec3 { Vec3(v.x, v.y * y, v.z) }
  function MulZ(v: Vec3, z: real): Vec3 { Vec3(v.x, v.y, v.z * z) }

  // ---------------------------------------------------------------------
  // Laws of the helpers
  // ---------------------------------------------------------------------

  /** Resetting twice is resetting once; a null transform is left alone. */
  lemma ResetWorldTransformIdempotent(t: Option<Transform>)
    ensures ResetWorldTransform(ResetWorldTransform(t)) == ResetWorldTransform(t)
    ensures t.None? ==> ResetWorldTransform(t) == None
  {
  }

  /** Projecting a projected position changes nothing. */
  lemma GetPositionXZIsProjection(t: Transform)
    ensures GetPositionXZ(Some(t.(position := GetPositionXZ(Some(t))))) == GetPositionXZ(Some(t))
  {
  }

  lemma IsCloseToSymmetric(a: int, b: int, threshold: int)
    ensures IsCloseTo(a, b, threshold) == IsCloseTo(b, a, threshold)
    ensures IsCloseTo(a, b) == IsCloseTo(a, b, 2)
  {
  }

  /**
   * Each `With` sets its own component independently of the others:
   * writes to different components commute, the last write to one
   * component wins, and writing back the current value changes nothing.
   */
  lemma WithReplacesOneComponent(v: Vec3, a: real, b: real)
    ensures WithX(WithY(v, a), b) == WithY(WithX(v, b), a) && WithX(WithX(v, a), b) == WithX(v, b) && WithX(v, v.x) == v
    ensures WithY(WithZ(v, a), b) == WithZ(WithY(v, b), a) && WithY(WithY(v, a), b) == WithY(v, b) && WithY(v, v.y) == v
    ensures WithZ(WithX(v, a), b) == WithX(WithZ(v, b), a) && WithZ(WithZ(v, a), b) == WithZ(v, b) && WithZ(v, v.z) == v
  {
  }

  /** Adding zero is the identity and two additions compose into one. */
  lemma AddComposes(v: Vec3, a: real, b: real)
    ensures AddX(v, 0.0) == v && AddX(AddX(v, a), b) == AddX(v, a + b)
    ensures AddY(v, 0.0) == v && AddY(AddY(v, a), b) == AddY(v, a + b)
    ensures AddZ(v, 0.0) == v && AddZ(AddZ(v, a), b) == AddZ(v, a + b)
    ensures AddX(AddX(v, a), -a) == v && AddY(AddY(v, a), -a) == v && AddZ(AddZ(v, a), -a) == v
  {
  }

  /** Multiplying by one is the identity and touches only its own component. */
  lemma MulTouchesOneComponent(v: Vec3, a: real)
    ensures MulX(v, 1.0) == v && MulY(v, 1.0) == v && MulZ(v, 1.0) == v
    ensures MulX(v, a).y == v.y && MulX(v, a).z == v.z
    ensures MulY(v, a).x == v.x && MulY(v, a).z == v.z
    ensures MulZ(v, a).x == v.x && MulZ(v, a).y == v.y
    ensures MulX(v, 0.0).x == 0.0 && MulY(v, 0.0).y == 0.0 && MulZ(v, 0.0).z == 0.0
  {
  }

  // ---------------------------------------------------------------------
  // IsCloseTo as written: 32-bit `int` arithmetic
  // ---------------------------------------------------------------------

  type Int32 = x: int | -0x8000_0000 <= x < 0x8000_0000

  /** Unchecked C# int arithmetic wraps modulo 2^32. */
  function Wrap32(x: int): (r: Int32)
    ensures (r - x) % 0x1_0000_0000 == 0
    ensures -0x8000_0000 <= x < 0x8000_0000 ==> r == x
    ensures 0x8000_0000 <= x < 0x1_8000_0000 ==> r == x - 0x1_0000_0000
    ensures -0x1_8000_0000 <= x < -0x8000_0000 ==> r == x + 0x1_0000_0000
  {
    (x + 0x8000_0000) % 0x1_0000_0000 - 0x8000_0000
  }

  /** `Mathf.Abs(int)`: `None` for the OverflowException it throws on `int.MinValue`. */
  function AbsInt32(x: Int32): Option<Int32> {
    if x == -0x8000_0000 then None else Some(if x < 0 then -x else x)
  }

  /** `Mathf.Abs(a - b) <= threshold` over 32-bit ints; `None` when it throws. */
  function IsCloseToAsWritten(a: Int32, b: Int32, threshold: Int32 := 2): (r: Option<bool>)
    ensures r.None? <==> Wrap32(a - b) == -0x8000_0000
    ensures r.Some? ==> (r.value <==> -(threshold as int) <= Wrap32(a - b) <= threshold)
  {
    match AbsInt32(Wrap32(a - b))
    case None => None
    case Some(d) => Some(d <= threshold)
  }

  /** Whenever `a - b` fits in an `int` the written helper agrees with `IsCloseTo`. */
  lemma IsCloseToAsWrittenAgrees(a: Int32, b: Int32, threshold: Int32)
    requires -0x8000_0000 < a - b < 0x8000_0000
    ensures IsCloseToAsWritten(a, b, threshold) == Some(IsCloseTo(a, b, threshold))
  {
    assert Wrap32(a - b) == a - b;
  }

  /** `int.MaxValue` and `int.MinValue` are reported close: `a - b` wraps to -1. */
  lemma IsCloseToAsWrittenWraps()
    ensures IsCloseToAsWritten(0x7FFF_FFFF, -0x8000_0000) == Some(true)
    ensures !IsCloseTo(0x7FFF_FFFF, -0x8000_0000)
  {
    assert Wrap32(0x7FFF_FFFF - -0x8000_0000) == -1;
  }
}

=== FILE: vector.dfy ===
/**
 * Unity's `Vector3` and `Quaternion` value types over exact reals, with the
 * one vector operation the streamer needs (`Vector3.Distance`, compared
 * against a threshold).
 */
module Vector {

  datatype Vec3 = Vec3(x: real, y: real, z: real)

  datatype Quaternion = Quaternion(x: real, y: real, z: real, w: real)

  /** `Vector3.zero` */
  const Zero := Vec3(0.0, 0.0, 0.0)

  /** `Vector3.one` */
  const One := Vec3(1.0, 1.0, 1.0)

  /** `Quaternion.identity` */
  const Identity := Quaternion(0.0, 0.0, 0.0, 1.0)

  function SqrDistance(a: Vec3, b: Vec3): real {
    (a.x - b.x) * (a.x - b.x) + (a.y - b.y) * (a.y - b.y) + (a.z - b.z) * (a.z - b.z)
  }

  /**
   * `Vector3.Distance(a, b) < threshold`, decided without a square root:
   * a distance is never negative, so it is below `threshold` exactly when
   * `threshold` is positive and the squared distance is below its square.
   */
  predicate DistanceLess(a: Vec3, b: Vec3, threshold: real) {
    0.0 < threshold && SqrDistance(a, b) < threshold * threshold
  }
}

=== FILE: wall_collider.dfy ===
/**
 * `WallCollider`: a wall raises the game-over event the first time the
 * player runs into it, deactivates the object that hit it, and ignores
 * every later collision.
 */
module WallCollider {
  import opened LayerMask

  /** The wall's player-layer mask and its one-shot flag `hasTriggered`. */
  datatype Collider = Collider(playerLayer: bv32, hasTriggered: bool)

  /** A GameObject that collides with the wall: its identity and its layer. */
  datatype Other = Other(id: nat, layer: Layer)

  /** The wall after a collision, whether `OnGameOver` was raised, and the object deactivated, if any. */
  datatype Outcome = Outcome(next: Collider, gameOver: bool, deactivated: seq<nat>)

  /** `OnCollisionEnter` followed, when it applies, by `HandlePlayerCollision`. */
  function OnCollisionEnter(w: Collider, other: Other): (o: Outcome)
    ensures o.gameOver <==> !w.hasTriggered && Contains(w.playerLayer, other.layer)
    ensures o.gameOver ==> o.deactivated == [other.id] && o.next.hasTriggered
    ensures !o.gameOver ==> o == Outcome(w, false, [])
    ensures o.next.playerLayer == w.playerLayer
  {
    if w.hasTriggered then Outcome(w, false, [])
    else if Contains(w.playerLayer, other.layer) then Outcome(w.(hasTriggered := true), true, [other.id])
    else Outcome(w, false, [])
  }

  /** `OnCollisionEnter` with the source's `> 0` test on the `int` mask bits. */
  function OnCollisionEnterAsWritten(w: Collider, other: Other): (o: Outcome)
    ensures o.gameOver <==> !w.hasTriggered && ContainsAsWritten(w.playerLayer, other.layer)
    ensures o.gameOver ==> o.deactivated == [other.id] && o.next.hasTriggered
    ensures !o.gameOver ==> o == Outcome(w, false, [])
    ensures o.next.playerLayer == w.playerLayer
  {
    if w.hasTriggered then Outcome(w, false, [])
    else if ContainsAsWritten(w.playerLayer, other.layer) then Outcome(w.(hasTriggered := true), true, [other.id])
    else Outcome(w, false, [])
  }

  /**
   * The two tests agree for objects on layers 0 to 30; a player put on
   * layer 31 walks through an untriggered wall whose mask selects it.
   */
  lemma CollisionAsWrittenMissesLayer31(w: Collider, other: Other)
    ensures other.layer < 31 ==> OnCollisionEnterAsWritten(w, other) == OnCollisionEnter(w, other)
    ensures other.layer == 31 && !w.hasTriggered && Contains(w.playerLayer, 31) ==>
              OnCollisionEnter(w, other).gameOver && !OnCollisionEnterAsWritten(w, other).gameOver
  {
    if other.layer < 31 {
      AsWrittenAgreesBelowSignBit(w.playerLayer, other.layer);
    }
  }

  /** The wall after a sequence of collisions and how many times it raised game over. */
  function Collide(w: Collider, others: seq<Other>): (Collider, nat)
    decreases |others|
  {
    if |others| == 0 then (w, 0)
    else
      var o := OnCollisionEnter(w, others[0]);
      var rest := Collide(o.next, others[1..]);
      (rest.0, rest.1 + (if o.gameOver then 1 else 0))
  }

  /**
   * Game over fires at most once per wall, never again once triggered,
   * and `hasTriggered` never goes back to false.
   */
  lemma {:induction false} GameOverAtMostOnce(w: Collider, others: seq<Other>)
    ensures Collide(w, others).1 <= 1
    ensures w.hasTriggered ==> Collide(w, others).1 == 0 && Collide(w, others).0 == w
    ensures w.hasTriggered ==> Collide(w, others).0.hasTriggered
    ensures Collide(w, others).0.hasTriggered <==> w.hasTriggered || Collide(w, others).1 == 1
    decreases |others|
  {
    if |others| > 0 {
      var o := OnCollisionEnter(w, others[0]);
      GameOverAtMostOnce(o.next, others[1..]);
    }
  }
}
